=== FILE: README.md ===
# SAPI pipe engine and voice server, modelled in Dafny

The repository connects Windows SAPI to Python text-to-speech engines. It has
four parts that carry logic:

- **`engine/engine.cpp`**, a SAPI engine.
  - `Engine::Speak` walks the text fragments SAPI hands it.
  - For each fragment it polls the host's action bits (`handle_actions`).
  - It sends a `{action, text, engine}` JSON request over the named pipe
    `\\.\pipe\AACSpeakHelper` (`SendRequestToPipe`).
  - It writes the returned `audio_data` chunks to the output site.
  - `Engine::SetObjectToken` reads the voice token. It splits the token's
    `Path` value at `;` into `sys.path` entries.
- **`VoiceServer/VoiceServer.py`**, a pipe server on `\\.\pipe\VoiceEngineServer`.
  - It lists engines and voices.
  - It registers a voice as a registry token (`register_voice`) and removes it
    again (`unregister_voice`).
  - It maps language codes to LCIDs (`convert_to_lcid_format`).
  - It sends large replies in chunks (`send_large_data`).
  - It routes each request by its `action` (`run`).
- **`VoiceServer/RegisterVoice.py`**, the client behind the registration window.
  - It reads a reply until a short chunk and decompresses it.
  - It filters voices by language.
  - It sends one `set_voice` request per selected voice.
- **`voices/voice_server.py`**, a Python voice that speaks through the helper pipe.

The model is pure functions over immutable data. A few methods cover the loops
over byte chunks.

- **JSON documents** are a `Json.Value` datatype. Objects keep their members
  in order.
- **jsoncpp accessor semantics** are in `CppJson`: which accessor throws on
  which kind of value.
- **Python built-ins** are in `Python`: `dict.get`, subscription, iteration,
  `bytes(...)`, and the exception each one raises.
- **Outside answers are inputs to the model.** This covers what the pipe
  delivers, whether the sink accepts a write, the host's action bits, registry
  key states and TTS engine answers. Each fragment, connection or server value
  carries its answers.
- **Foreign conversions are function parameters.** This covers the UTF-16 to
  UTF-8 conversion, the JSON parsers and zlib. Parsing and decompression
  return `Option` or an outcome with a message.

Modules:

| module | file | contents |
|---|---|---|
| `Wrappers`, `Seqs`, `Text` | `wrappers.dfy`, `seqs.dfy`, `text.dfy` | `Option`, chunk concatenation, counting, ASCII case mapping, substring search, first-separator split, decimal rendering |
| `Json`, `CppJson`, `Python` | `json.dfy`, `cpp_json.dfy`, `python.dfy` | the JSON value and the two runtimes' accessors |
| `Engine` | `engine.dfy` | `SendRequestToPipe`, `handle_actions`, one pass of `Speak`, `SetObjectToken` |
| `EngineProofs` | `engine_proofs.dfy` | where `Speak` stops, and what it requested and wrote by then |
| `PathProofs` | `path_proofs.dfy` | the `sys.path` loop as written against the corrected one |
| `VoiceServer` | `voice_server.dfy` | LCID lookup, combo split, registry record, unregistering, chunked send, routing |
| `RegisterClient` | `register_client.dfy` | reply reassembly, `send_pipe_request`, `filter_voices`, `register_selected_voices` |
| `PipeVoice` | `pipe_voice.dfy` | `PipeClient.send_request` and `VoiceServerVoice.speak` |

`engine/engine.cpp` holds the same unit many times over. The model follows the
first copy, lines 1-293.

## Model

| member | source | states |
|---|---|---|
| `Engine.SpeakRequest` | engine/engine.cpp:63-67 | The request is an object with exactly the members `action`, `engine` and `text`; `action` is "speak" and the other two are the caller's values. |
| `Engine.AppendChunks` | engine/engine.cpp:96-101 | The chunk loop succeeds exactly when every chunk is a value `asString` accepts. It then appends the chunk texts to the vector, in array order. |
| `Engine.DecodeResponse` | engine/engine.cpp:93-108 | Returns true exactly when `status` is "success" and every chunk is a scalar. On true the vector gains the chunk texts in order. On false it is unchanged. It throws exactly when the response is neither null nor an object, or when an accepted response has a non-scalar chunk. |
| `Engine.SendRequestToPipe` | engine/engine.cpp:45-109 | Returns true exactly when the reply parses, has status "success" and only scalar chunks; `audio_data` is then its old contents followed by the chunk texts. Every false return leaves `audio_data` unchanged. An unopened pipe gives false after only the connect attempt. An opened pipe sees exactly connect, one write of the request, and one read of at most 65536 bytes. It throws exactly when a jsoncpp accessor would: `operator[]` on a value that is neither null nor an object, or `asString` on an array or object. |
| `Engine.HandleClosedOnReturn` | engine/engine.cpp:57-108 | After a successful open the handle is closed exactly once on every return path (lines 89, 103 and 107). A failed open closes nothing. An exception that unwinds leaves it open. |
| `Engine.ExchangeOps` | engine/engine.cpp:73-107 | The operations on an opened handle contain one close when the call returns and none when it unwinds. |
| `Engine.HandleActions` | engine/engine.cpp:251-292 | Returns 1 if and only if the ABORT bit is set, and 0 otherwise. The action bits are always read first. The skip, rate and volume getters are called exactly when their own bit is set and ABORT is not, in that fixed order. |
| `Engine.FetchOutcome` | engine/engine.cpp:215-226 | Fetching into a fresh vector succeeds exactly when the reply delivers, throws exactly when it unwinds, and on success holds exactly the delivered audio. |
| `Engine.FetchAndWrite` | engine/engine.cpp:215-235 | A pass goes on exactly when the audio is delivered and the sink accepts all of it. A failed fetch writes nothing. A delivered fetch writes exactly the delivered audio, after the pipe operations. It never returns S_OK. |
| `Engine.SpeakStep` | engine/engine.cpp:201-238 | One loop pass goes on exactly when its fragment completes. It returns S_OK exactly when the fragment was aborted. It unwinds exactly when the fragment was not aborted and the reply makes a jsoncpp accessor throw. |
| `Engine.StepProjections` | engine/engine.cpp:201-238 | One pass sends the request unless it was aborted or the pipe did not open. It writes the delivered audio when there is some. Seen from outside it does nothing else. |
| `Engine.Steps` | engine/engine.cpp:201 | Each fragment gets its own pass, which depends only on that fragment. |
| `EngineProofs.RunVerdict` | engine/engine.cpp:201-240 | The loop returns what its first returning pass returns, or S_OK when every pass goes on. |
| `EngineProofs.RunOutputs` | engine/engine.cpp:201-240 | The loop writes the outputs of the passes before the stop, in order, then those of the returning pass. |
| `EngineProofs.RunRequests` | engine/engine.cpp:201-240 | The loop sends the requests of the passes before the stop, in order, then those of the returning pass. |
| `EngineProofs.RunAlternates` | engine/engine.cpp:201-240 | If every pass alternates request and write, and every pass that goes on ends on a write, the whole loop alternates. |
| `EngineProofs.StopsAtFirstIncomplete` | engine/engine.cpp:201-240 | The pass that returns belongs to the first fragment that does not complete. |
| `EngineProofs.SpeakVerdict` | engine/engine.cpp:196-241 | Let k be the first fragment that does not complete. `Speak` returns S_OK exactly when there is no such k or fragment k was aborted. It unwinds exactly when fragment k was not aborted and its reply makes a jsoncpp accessor throw. Otherwise it returns E_FAIL. |
| `EngineProofs.SpeakWrites` | engine/engine.cpp:201-235 | The sink receives the audio of fragments 0..k-1 in order. It receives one more buffer only when fragment k's audio was delivered but the sink did not take all of it. |
| `EngineProofs.SpeakRequests` | engine/engine.cpp:201-235 | One request goes out per fragment 0..k-1, in order. One more goes out for fragment k when it was not aborted and the pipe opened. No later fragment is requested. |
| `EngineProofs.SpeakAlternates` | engine/engine.cpp:201-238 | Requests and writes alternate, starting with a request. Fragment N's audio reaches the sink before fragment N+1 is requested. |
| `Engine.SplitPathFrom` | engine/engine.cpp:163-175 | The corrected loop appends the `;`-free pieces of the path, in order. Joining them with `;` gives back the path. There is one more piece than there are separators. A path without `;` is appended once, whole. |
| `Engine.SetObjectToken` | engine/engine.cpp:110-187 | Fails exactly when one of "", `Engine`, `Path`, `Module`, `Class` is missing, and reports the first missing one in that order. Otherwise it keeps the `Engine` value. With the `sys.path` loop corrected (see Findings), the entries contain no `;` and join back to the `Path` value. |
| `Engine.SplitPathAsWrittenFrom` | engine/engine.cpp:165-175 | The loop as written appends pieces without `;`, and at least one when it does not throw. How it departs from the corrected loop is stated by `PathProofs.SplitAsWrittenWrongFromTwoSeparators`. |
| `PathProofs.SplitAsWrittenAgreesUpToOneSeparator` | engine/engine.cpp:163-175 | With at most one `;`, the loop as written appends the same pieces as the corrected loop and does not throw. |
| `PathProofs.SplitPathKeepsText` | engine/engine.cpp:163-175 | The corrected loop splits "a;bc;def" into "a", "bc", "def". |
| `PathProofs.SplitAsWrittenDropsText` | engine/engine.cpp:174 | The loop as written splits "a;bc;def" into "a", "bc", "f", losing "de". |
| `PathProofs.SplitAsWrittenThrows` | engine/engine.cpp:174 | On "a;b;c" the loop as written appends "a" and "b", then `substr` throws `out_of_range` where "c" was due. |
| `PathProofs.SplitAsWrittenWrongFromTwoSeparators` | engine/engine.cpp:163-175 | For every `Path` with two or more `;`, the loop as written either throws or appends something other than the corrected loop's pieces. It appends less text than the path holds. |
| `VoiceServer.ConvertToLcidFormat` | VoiceServer/VoiceServer.py:179-198 | Replaces `-` with `_`, then returns the key of the first map member, in map order, whose value is the reformatted code. Returns "Unknown LCID" when there is none. Raises when the code is not a string or the map is not a dict. |
| `VoiceServer.LcidOrDefault` | VoiceServer/VoiceServer.py:439-441 | The LCID written to the registry is never empty. A non-empty answer from `convert_to_lcid_format` is used unchanged, an empty one becomes "406", and a raise passes through. |
| `VoiceServer.LcidIgnoresSeparator` | VoiceServer/VoiceServer.py:191 | Codes written with `-` or with `_` look up the same LCID. |
| `VoiceServer.DefaultNeedsEmptyKey` | VoiceServer/VoiceServer.py:194-198 | When no key of the map is empty, the `or "406"` default never applies. |
| `VoiceServer.FindVoice` | VoiceServer/VoiceServer.py:418-420 | Finds the first voice whose `id` equals the voice id. The answer is None only when every voice has an `id` and none matches. The search raises exactly when, before any match, it meets a voice whose `id` cannot be read (`IdRaisesAt`). |
| `VoiceServer.VoiceLocale` | VoiceServer/VoiceServer.py:428 | The locale is "en-US" when the voice has no `language_codes`, and otherwise the first element of that value. |
| `VoiceServer.VoiceGender` | VoiceServer/VoiceServer.py:436 | The gender is "Neutral" when absent. A string gender is capitalised. A gender that is not a string raises. |
| `VoiceServer.SplitCombo` | VoiceServer/VoiceServer.py:412 | The combo splits at its first `-`. The engine part holds no `-` and the voice part is the rest, verbatim. The split fails exactly when the combo is not a string or has no `-`. |
| `VoiceServer.RegisterFor` | VoiceServer/VoiceServer.py:414-474 | Returns False for an unknown engine, a failed voice listing, or a voice id not in the list. On success both registry paths receive the same token `PYTTS-<engine>`: `Name` is the voice id, `Vendor` the engine, `Module` "voices", `Class` `<engine>Voice`, `Path` the libraries directory, `Age` "Adult", and the default value `<engine> - <id> (<locale>)`. It returns True exactly when the engine is known, the listing succeeds, the voice is found, and the voice is `Registrable`: its locale reads, `set_voice` does not raise, its gender capitalises and the LCID lookup does not raise. |
| `VoiceServer.WriteVoice` | VoiceServer/VoiceServer.py:423-468 | Returns False when the locale cannot be read or `set_voice` raises. On success it writes one token under the 64-bit and the 32-bit path. Its language is the LCID lookup of the locale and its gender the capitalised gender. It returns True exactly when the voice is `Registrable`. |
| `VoiceServer.RegisterVoiceAsWritten` | VoiceServer/VoiceServer.py:473 | As written, the call raises exactly when the combo cannot be split. |
| `VoiceServer.RegisterVoice` | VoiceServer/VoiceServer.py:408-474 | A combo that cannot be split gives False. Otherwise the result is the registration of its engine and voice parts. |
| `VoiceServer.RegisterVoiceAgrees` | VoiceServer/VoiceServer.py:408-474 | Wherever the split succeeds, the handler as written and the corrected one agree. Where it fails, the first raises and the second returns False. |
| `VoiceServer.RegisterWithoutSeparatorRaises` | VoiceServer/VoiceServer.py:473 | The combo "Microsoft" makes the handler as written raise, where False was meant. |
| `VoiceServer.OneTokenPerEngine` | VoiceServer/VoiceServer.py:443-447 | Two voices of one engine are written to the same keys, so registering the second replaces the first. |
| `VoiceServer.RegisteredTokenLacksEngine` | VoiceServer/VoiceServer.py:449-463 | The token written holds no `Engine` value, so the engine's token reader (engine/engine.cpp:124-129) stops there. |
| `VoiceServer.DeleteKeys` | VoiceServer/VoiceServer.py:487-502 | Returns True exactly when no key refuses to be opened or deleted. Missing keys are skipped. Only present keys are deleted, and on True every present key is. On False, every present key before the first refusing key is deleted and no key from that one on is touched. |
| `VoiceServer.UnregisterVoiceAsWritten` | VoiceServer/VoiceServer.py:504 | As written, the call raises exactly when the combo cannot be split. |
| `VoiceServer.UnregisterVoice` | VoiceServer/VoiceServer.py:476-505 | A combo that cannot be split gives False and deletes nothing. Otherwise the result is True exactly when neither token path refuses. The 64-bit key is deleted exactly when it is present. The 32-bit key is deleted exactly when it is present and the 64-bit key did not refuse. |
| `VoiceServer.UnregisterVoiceAgrees` | VoiceServer/VoiceServer.py:476-505 | Wherever the split succeeds, the handler as written and the corrected one agree. |
| `VoiceServer.UnregisterWithoutSeparatorRaises` | VoiceServer/VoiceServer.py:504 | The combo "Microsoft" makes the handler as written raise, where False was meant. |
| `VoiceServer.UnregisterIgnoresVoice` | VoiceServer/VoiceServer.py:479-485 | Only the engine part of the combo matters: unregistering any voice of an engine removes the engine's token. |
| `VoiceServer.SplitAfterPrefix` | VoiceServer/VoiceServer.py:412 | When the engine name has no `-`, splitting `engine-voice` recovers both parts. |
| `VoiceServer.SendLargeData` | VoiceServer/VoiceServer.py:352-376 | Concatenating the writes gives the compressed payload. Every write but the last has 1 to 120*1024 bytes, and every one but the last two is full. There are ceil(size / 120K) of them, followed by exactly one empty write. When compression fails nothing is written. |
| `VoiceServer.VoicesResponse` | VoiceServer/VoiceServer.py:324-350 | The status is "success" exactly when the listing succeeded and holds at least one voice, and the reply then carries those voices under `voices`. An empty listing gives the message "No voices found". A failed listing gives the exception's message. |
| `VoiceServer.StatusResponse` | VoiceServer/VoiceServer.py:293-301 | The reply is the one-member object `{"status": ...}`: "success" exactly when the handler returned True, and "failure" otherwise. |
| `VoiceServer.Route` | VoiceServer/VoiceServer.py:270-315 | `set_voice` and `unregister_voice` reply with the `StatusResponse` of their handler's result. `list_voices` and `speak` for an engine not in `self.engines` get no reply. `list_voices` for a known engine sends the engine's `VoicesResponse` through `send_large_data`. `list_engines` replies with the engine names. `speak` streams the engine's chunks exactly when the text can be sliced. Any other action, or a request that is not a dict, gets no reply. |
| `VoiceServer.Serve` | VoiceServer/VoiceServer.py:259-322 | A failed read, a request that cannot be decoded or a request that is not a dict gets no reply. Otherwise the request is routed. |
| `RegisterClient.Receive` | VoiceServer/RegisterVoice.py:66-74 | The buffer is the concatenation of the chunks read, up to and including the first chunk shorter than 64*1024 bytes. Reading stops there. |
| `RegisterClient.ReceiveAndDecompress` | VoiceServer/RegisterVoice.py:49-84 | The result is the decompressed buffer. It is None when decompression fails or yields nothing, and when the pipe breaks before a short chunk arrives. |
| `RegisterClient.SendPipeRequest` | VoiceServer/RegisterVoice.py:88-125 | An unavailable pipe, a reply that never ends, or a failed decompression all give None. Otherwise the result is the parsed reply. |
| `RegisterClient.LanguageName` | VoiceServer/RegisterVoice.py:205-212 | A string code whose display name is known becomes the lower-cased "<name> (<code>)". A code with no display name becomes the lower-cased code. A code that is not a string raises. |
| `RegisterClient.CodeItems` | VoiceServer/RegisterVoice.py:233-236 | The codes visited are those under `language_codes`, or none when it is absent. A voice that is not a dict, or codes that cannot be iterated, raise. |
| `RegisterClient.LanguageNames` | VoiceServer/RegisterVoice.py:205-212 | Gives one lower-cased name per code, in order. It raises exactly when a code is not a string. |
| `RegisterClient.Passes` | VoiceServer/RegisterVoice.py:231-237 | A voice passes exactly when all its codes are strings and some code's lower-cased language name contains the lower-cased search text. The test raises exactly when the codes cannot be read or one of them is not a string. A voice without `language_codes` never passes. |
| `RegisterClient.FilterVoices` | VoiceServer/RegisterVoice.py:228-239 | The result holds exactly the voices that pass: every voice kept passes, and every voice that passes is kept. It raises exactly when some voice's test raises. |
| `RegisterClient.FilterAppend` | VoiceServer/RegisterVoice.py:228-239 | Filtering a concatenation gives the two filtered parts, in order. So the filter keeps the original order. |
| `RegisterClient.NoCodesNeverPass` | VoiceServer/RegisterVoice.py:233-237 | A voice with no codes, or an empty list of codes, never passes, even with empty search text. |
| `RegisterClient.EmptySearchPassesAnyCode` | VoiceServer/RegisterVoice.py:229-237 | With empty search text, a voice passes exactly when it has at least one code. |
| `RegisterClient.ComboRoundTrip` | VoiceServer/RegisterVoice.py:255-257 | The server's first-`-` split recovers engine and voice id from `engine-voice_id` if and only if the engine name has no `-`. |
| `RegisterClient.Succeeded` | VoiceServer/RegisterVoice.py:263 | A reply counts as success exactly when it is a dict whose status is "success". A truthy reply that is not a dict raises. |
| `RegisterClient.SendSelected` | VoiceServer/RegisterVoice.py:250-273 | Requests go out in selection order, one `set_voice` request for each item's combo. Each outcome is what the reply to that request showed. The loop stops at the first item that does not proceed (its combo does not format, or its reply raises) and raises exactly there; a request went out for that item exactly when its combo formatted. |
| `RegisterClient.RegisterSelectedVoices` | VoiceServer/RegisterVoice.py:241-273 | With no selected items no request is sent. Otherwise the requests and outcomes are those of `SendSelected`, stopping and raising at the first item that does not proceed. The registration ends without an exception exactly when every selected item proceeds. |
| `PipeVoice.Exchange` | voices/voice_server.py:21-31 | The response comes from a single read of at most 65536 bytes. A failed write, a failed read or a failed parse gives `{"status": "error", "message": ...}` with the first exception's message. |
| `PipeVoice.SendRequestAsWritten` | voices/voice_server.py:33-34 | As written, the call raises exactly when `CreateFile` fails. |
| `PipeVoice.SendRequest` | voices/voice_server.py:11-34 | A failed open gives the error dictionary with its message. An open pipe gives the exchange's result. |
| `PipeVoice.SendRequestAgrees` | voices/voice_server.py:11-34 | Once the pipe is open, the call as written and the corrected one agree. |
| `PipeVoice.RefusedOpenRaises` | voices/voice_server.py:15-34 | When the helper is not running, the call as written raises, while the corrected call returns status "error". |
| `PipeVoice.SpeakRequest` | voices/voice_server.py:48-52 | The request has exactly the members `action` = "speak", `engine` and `text`, in that order. It is the same object the C++ engine sends. |
| `PipeVoice.YieldBytes` | voices/voice_server.py:57-58 | Yields `bytes(chunk)` for the chunks in order. It stops with an exception exactly at the first chunk `bytes` rejects. |
| `PipeVoice.Speak` | voices/voice_server.py:46-61 | On status "success" with an `audio_data` list it yields one byte string per element, in order, and raises exactly at the first chunk `bytes` rejects. On any other status it yields nothing and does not raise. A response that is not a dict, or a success without an iterable `audio_data`, raises before yielding anything. |
| `PipeVoice.StringChunksRaise` | voices/voice_server.py:57-58 | Audio chunks sent as JSON strings make the generator raise at the first one, before yielding anything. |

## Left out

- Named-pipe, COM and registry I/O are left out. `CreateFile`, `ReadFile`, `WriteFile`, `win32pipe`, `winreg` and `ISpTTSEngineSite` appear only as the answers they give, attached to the inputs.
- jsoncpp, Python's `json`, `zlib` and `WideCharToMultiByte` are function parameters. The model keeps only the fact that an empty wide string converts to an empty string (engine/engine.cpp:18-19).
- COM boilerplate is left out: `FinalConstruct`, `FinalRelease`, `GetObjectToken`, `GetOutputFormat` and `SpGenericSetObjectToken`. So are the embedded-Python calls at the end of `SetObjectToken`, which `Speak` never uses.
- `register_sapi_engine` and `is_engine_registered` are left out: they write or probe registry keys and carry no logic. The model also omits the rare case where `is_engine_registered` raises something other than `FileNotFoundError` and so ends a `set_voice` pass without a reply.
- Registry write failures in `register_voice` are left out. A `SetValueEx` that raises would turn a registration into False.
- The Qt window, the tray icon, threading and logging are left out.
- `load_config`, `init_engines` and the TTS client libraries are left out. An engine is its voice listing, whether `set_voice` raises, and the chunks `synth_to_bytes` yields.
- `langcodes` display names are a function parameter.
- Case mapping (`lower`, `capitalize`) covers ASCII letters only.
- VoiceServer.Route: a `speak` synthesis that raises partway is represented by the chunks written before the exception; the model does not separate that case from a normal end.
- VoiceServer.Route: a `list_voices` reply is stated as the JSON response handed to `send_large_data`; the compressed bytes are `SendLargeData`'s business.
- RegisterClient.SendPipeRequest: the bytes of the request written to the pipe are not modelled; only the reply is.
- Engine.SpeakStep: the UTF-8 conversion of the fragment text and the engine name is a parameter, so the request is stated in terms of that conversion.
- VoiceServer.Route: it dispatches `set_voice` and `unregister_voice` to the corrected `RegisterVoice` and `UnregisterVoice` (see Findings). For a combo without '-' it replies "failure"; as written, the `except` handler raises at VoiceServer/VoiceServer.py:473 and :504, the handler at :317 catches it, and no reply is sent.
- Engine.SetObjectToken: it splits `Path` with the corrected loop (see Findings). As written, a `Path` with two or more `;` loses text or throws at engine/engine.cpp:174 (`PathProofs.SplitAsWrittenWrongFromTwoSeparators`).
- PipeVoice.Speak: it uses the corrected `send_request` (see Findings). As written, a pipe that cannot be opened makes `send_request` raise at voices/voice_server.py:34 instead of returning the error dictionary.
- JSON numbers are integers only. Floating-point values are not modelled, so neither is `asString` on a real nor `bytes()` of a list holding a float.
- In `Engine`, the 65536-byte `ReadFile` limit and the sink's `written` count are stated in characters of the modelled strings. `ReadFile` and the sink count bytes, so the two agree only for single-byte text.
- The engine's `assert` calls (engine/engine.cpp:116, 271-272, 280, 288) are left out. The model follows a build with `NDEBUG` defined, where they compile to nothing: a site query that fails is logged and ignored.
- Answers from outside are functions of the request: the helper's exchange attached to each fragment in `Engine`, and `exchange` in `RegisterClient`. So two identical requests in one run get identical replies. The real pipes could answer them differently.
- Engine.SendRequestToPipe: a throw from `Json::parseFromStream` itself (engine/engine.cpp:84) is not modelled. Such a throw happens, for instance, past jsoncpp's default nesting limit of 1000. The parser is a function that answers a value or nothing, so the modelled throws are the accessor throws only.
- RegisterClient.ReceiveAndDecompress: when the pipe breaks before a chunk shorter than 64 KiB arrives, `ReadFile` raises at VoiceServer/RegisterVoice.py:70 and the exception leaves `receive_and_decompress`. The model gives None there. The only caller, `send_pipe_request`, turns that exception into None anyway (VoiceServer/RegisterVoice.py:122-124).
- Speak itself has no contract of its own. Its properties are the `EngineProofs` lemmas, stated over the first incomplete fragment.

## Findings

| source | as written | input that shows it | evidently intended | confidence | as-written member | corrected member |
|---|---|---|---|---|---|---|
| engine/engine.cpp:174 | `offset += pos + 1` adds an absolute index to the offset | `Path` = "a;bc;def" appends "a", "bc", "f"; "a;b;c" throws `out_of_range` | `offset = pos + 1`, appending every `;`-separated piece | high, not executed | `PathProofs.SplitAsWrittenDropsText` | `PathProofs.SplitPathKeepsText` |
| VoiceServer/VoiceServer.py:473 | the handler logs `voice_id`, which is unbound when the split failed | combo "Microsoft" | return False | high, not executed | `VoiceServer.RegisterWithoutSeparatorRaises` | `VoiceServer.RegisterVoice` |
| VoiceServer/VoiceServer.py:504 | the handler logs `voice_name`, which is unbound when the split failed | combo "Microsoft" | return False | high, not executed | `VoiceServer.UnregisterWithoutSeparatorRaises` | `VoiceServer.UnregisterVoice` |
| voices/voice_server.py:34 | `finally` closes `pipe`, which is unbound when `CreateFile` raised | the helper pipe does not exist | return the error dictionary | high, not executed | `PipeVoice.RefusedOpenRaises` | `PipeVoice.SendRequest` |

Other observations the model makes precise:

- The token `register_voice` writes has no `Engine` value. `Engine::SetObjectToken` needs that value, so it stops at it (`VoiceServer.RegisteredTokenLacksEngine`).
- `convert_to_lcid_format` answers "Unknown LCID" rather than an empty string, so the `or "406"` default applies only to a map with an empty key (`VoiceServer.DefaultNeedsEmptyKey`).
- `VoiceServerVoice.speak` calls `bytes(chunk)` without an encoding, so string chunks raise (`PipeVoice.StringChunksRaise`).
- The token is keyed by engine only (`VoiceServer.OneTokenPerEngine`, `VoiceServer.UnregisterIgnoresVoice`).
- A reply to `receive_and_decompress` whose last chunk is exactly 64*1024 bytes long does not end the read loop. `RegisterClient.Receive` then needs a further, shorter read.

=== FILE: cpp_json.dfy ===
/**
 * The parts of jsoncpp's `Json::Value` interface that the SAPI engine uses,
 * with the library's behaviour on values of an unexpected kind: some calls
 * throw `Json::LogicError` instead of answering.
 */
module CppJson {
  import opened Wrappers
  import opened Json
  import opened Text

  /** The outcome of a jsoncpp call that may throw. */
  datatype Cpp<+T> = Done(value: T) | Throws

  /** A value `asString` accepts: anything but an array or an object. */
  predicate Scalar(v: Value)
  {
    !v.Arr? && !v.Obj?
  }

  /**
   * Non-const `Value::operator[](const char*)`: on null and on an object a
   * missing member reads as null; any other kind of value throws.
   */
  function Member(v: Value, key: string): (r: Cpp<Value>)
    ensures r.Throws? <==> !v.Null? && !v.Obj?
  {
    match v
    case Null => Done(Null)
    case Obj(members) =>
      (match Lookup(members, key)
       case Some(x) => Done(x)
       case None => Done(Null))
    case _ => Throws
  }

  /** What a range-for over a value visits: array elements, object member values, nothing for scalars. */
  function Elements(v: Value): seq<Value>
  {
    match v
    case Arr(items) => items
    case Obj(members) => MemberValues(members)
    case _ => []
  }

  /** `Value::asString`: null reads as "", booleans and integers as their text; arrays and objects throw. */
  function AsString(v: Value): (r: Cpp<string>)
    ensures r.Done? <==> Scalar(v)
    ensures v.Str? ==> r == Done(v.s)
    ensures v.Null? ==> r == Done("")
  {
    match v
    case Null => Done("")
    case Bool(b) => Done(if b then "true" else "false")
    case Int(n) => Done(Decimal(n))
    case Str(s) => Done(s)
    case _ => Throws
  }

  /** The text `asString` gives a scalar. */
  function ChunkText(v: Value): string
  {
    match AsString(v)
    case Done(s) => s
    case Throws => ""
  }

  /** The texts of a list of chunks, in order. */
  function Texts(chunks: seq<Value>): (r: seq<string>)
    ensures |r| == |chunks|
    ensures forall i :: 0 <= i < |chunks| ==> r[i] == ChunkText(chunks[i])
  {
    if |chunks| == 0 then [] else [ChunkText(chunks[0])] + Texts(chunks[1..])
  }
}

=== FILE: engine.dfy ===
/**
 * The per-utterance logic of the SAPI text-to-speech engine (engine/engine.cpp):
 * one JSON request per text fragment over the `AACSpeakHelper` named pipe, the
 * host's action poll before each fragment, the fragment loop of `Speak`, and
 * the reading of the voice token in `SetObjectToken`.
 *
 * Everything the engine learns from outside is an input: the helper's answer
 * on the pipe, the host's action bits and sink acknowledgements ride along
 * with each fragment, and the UTF-8 converter and JSON parser are functions
 * in `Runtime`.
 */
module Engine {
  import opened Wrappers
  import opened Seqs
  import opened Text
  import opened Json
  import opened CppJson

  /** Size of the one buffer the response is read into. */
  const ReadBufferSize: nat := 65536

  /** Foreign services: `WideCharToMultiByte` for non-empty input, and jsoncpp's `parseFromStream`. */
  datatype Runtime = Runtime(wideToUtf8: string -> string, parseJson: string -> Option<Value>)

  /** `utf8_encode`: the empty string converts to the empty string; anything else goes to Windows. */
  function Utf8Encode(rt: Runtime, w: string): string
  {
    if |w| == 0 then [] else rt.wideToUtf8(w)
  }

  // ---------------------------------------------------------------------------
  // SendRequestToPipe
  // ---------------------------------------------------------------------------

  /** What the helper does with one connection attempt: not there, or answers with these bytes. */
  datatype PipeReply = Unreachable | Answers(sent: string)

  /** What the engine does to the pipe handle. */
  datatype PipeOp = Connect | Send(request: Value) | Receive(data: string) | Close

  /** How a call ends: a boolean return, or a jsoncpp exception that unwinds through it. */
  datatype Exit = Returned(ok: bool) | Threw

  /** A call's ending, the caller's `audio_data` vector afterwards, and the handle operations in order. */
  datatype PipeCall = PipeCall(exit: Exit, audio: string, ops: seq<PipeOp>)

  /** The request object: exactly `action`, `engine` and `text` (jsoncpp keeps object members in key order). */
  function SpeakRequest(text: string, engine: string): (r: Value)
    ensures r.Obj? && Keys(r.members) == ["action", "engine", "text"]
    ensures Lookup(r.members, "action") == Some(Str("speak"))
    ensures Lookup(r.members, "text") == Some(Str(text))
    ensures Lookup(r.members, "engine") == Some(Str(engine))
  {
    var members := [("action", Str("speak")), ("engine", Str(engine)), ("text", Str(text))];
    assert Lookup(members[1..][1..], "text") == Some(Str(text));
    assert Lookup(members[1..], "engine") == Some(Str(engine));
    Obj(members)
  }

  /** The bytes the single `ReadFile` delivers: at most one buffer's worth of what the helper sent. */
  function Received(sent: string): string
  {
    Take(sent, ReadBufferSize)
  }

  /** `response["audio_data"]` once the status check has passed: the member, or null when it is absent. */
  function AudioField(response: Value): Value
  {
    match Member(response, "audio_data")
    case Done(v) => v
    case Throws => Null
  }

  /** A parsed response the engine accepts: an object whose `status` is the string "success". */
  predicate Accepted(response: Value)
  {
    response.Obj? && Lookup(response.members, "status") == Some(Str("success"))
  }

  /** The chunks an accepted response carries. */
  function AudioChunks(response: Value): seq<Value>
  {
    Elements(AudioField(response))
  }

  /** The helper's answer, once received and parsed. */
  function ParsedReply(rt: Runtime, reply: PipeReply): Option<Value>
  {
    match reply
    case Unreachable => None
    case Answers(sent) => rt.parseJson(Received(sent))
  }

  /** The conditions under which `SendRequestToPipe` returns true. */
  predicate Delivers(rt: Runtime, reply: PipeReply)
  {
    match ParsedReply(rt, reply)
    case None => false
    case Some(response) =>
      Accepted(response) && AllScalar(AudioChunks(response))
  }

  /** Every chunk is one `asString` accepts. */
  predicate AllScalar(chunks: seq<Value>)
  {
    forall i :: 0 <= i < |chunks| ==> Scalar(chunks[i])
  }

  /**
   * The loop over `audio_data`: appends each chunk's text in order; `None`
   * when `asString` throws on a chunk (the partly filled vector is then
   * destroyed by the unwinding, so its contents do not matter).
   */
  function AppendChunks(acc: string, chunks: seq<Value>): (r: Option<string>)
    ensures r.Some? <==> AllScalar(chunks)
    ensures r.Some? ==> r.value == acc + Flatten(Texts(chunks))
    decreases |chunks|
  {
    if |chunks| == 0 then Some(acc)
    else
      match AsString(chunks[0])
      case Throws => None
      case Done(s) =>
        assert Texts(chunks) == [s] + Texts(chunks[1..]);
        AppendChunks(acc + s, chunks[1..])
  }

  /** How the status check and the chunk loop end, and the `audio_data` vector afterwards. */
  datatype Decoded = Decoded(exit: Exit, audio: string)

  /**
   * The part of `SendRequestToPipe` after a successful parse: `status` must
   * be the string "success", then every chunk of `audio_data` is appended.
   */
  function DecodeResponse(response: Value, audio: string): (d: Decoded)
    ensures d.exit == Returned(true) <==>
      Accepted(response) && AllScalar(AudioChunks(response))
    ensures d.exit == Returned(true) ==> d.audio == audio + Flatten(Texts(AudioChunks(response)))
    ensures d.exit == Returned(false) ==> d.audio == audio
    ensures d.exit.Threw? <==> (!response.Null? && !response.Obj?) || (Accepted(response) && !AllScalar(AudioChunks(response)))
  {
    match Member(response, "status")
    case Throws => Decoded(Threw, audio)
    case Done(status) =>
      if status == Str("success") then
        match AppendChunks(audio, AudioChunks(response))
        case Some(data) => Decoded(Returned(true), data)
        case None => Decoded(Threw, audio)
      else Decoded(Returned(false), audio)
  }

  /** The handle operations when the pipe opened: connect, write, read, then a close unless an exception unwound. */
  function ExchangeOps(request: Value, data: string, closed: bool): (ops: seq<PipeOp>)
    ensures Count(ops, Close) == (if closed then 1 else 0)
  {
    var exchanged := [Connect, Send(request), Receive(data)];
    CountAbsent(exchanged, Close);
    CountAppend(exchanged, [Close], Close);
    assert Count([Close], Close) == 1 + Count([Close][1..], Close);
    assert exchanged + [] == exchanged;
    exchanged + (if closed then [Close] else [])
  }

  /** The reply makes jsoncpp throw: a parsed response that is neither null nor an object, or an accepted one with a non-scalar chunk. */
  predicate Unwinds(rt: Runtime, reply: PipeReply)
  {
    match ParsedReply(rt, reply)
    case None => false
    case Some(response) =>
      (!response.Null? && !response.Obj?) || (Accepted(response) && !AllScalar(AudioChunks(response)))
  }

  /** The audio a delivering reply carries: the texts of its chunks, concatenated in order. */
  function DeliveredAudio(rt: Runtime, reply: PipeReply): string
  {
    if Delivers(rt, reply) then Flatten(Texts(AudioChunks(ParsedReply(rt, reply).value))) else []
  }

  /**
   * `SendRequestToPipe(text, engine_name, audio_data)`: connect, write one
   * request, read once, parse, check the status, append the chunks.
   */
  function SendRequestToPipe(rt: Runtime, text: string, engine: string, audio: string, reply: PipeReply): (r: PipeCall)
    ensures r.exit == Returned(true) <==> Delivers(rt, reply)
    ensures r.exit == Threw <==> Unwinds(rt, reply)
    ensures r.exit == Returned(true) ==> r.audio == audio + DeliveredAudio(rt, reply)
    ensures r.exit == Returned(false) ==> r.audio == audio
    ensures reply.Unreachable? ==> r == PipeCall(Returned(false), audio, [Connect])
    ensures reply.Answers? ==>
      r.ops == ExchangeOps(SpeakRequest(text, engine), Received(reply.sent), r.exit.Returned?)
  {
    match reply
    case Unreachable =>
      PipeCall(Returned(false), audio, [Connect])
    case Answers(sent) =>
      var request := SpeakRequest(text, engine);
      match rt.parseJson(Received(sent))
      case None => PipeCall(Returned(false), audio, ExchangeOps(request, Received(sent), true))
      case Some(response) =>
        var d := DecodeResponse(response, audio);
        PipeCall(d.exit, d.audio, ExchangeOps(request, Received(sent), d.exit.Returned?))
  }

  /** The handle is closed exactly once on every path that returns, and never when an exception unwinds. */
  lemma HandleClosedOnReturn(rt: Runtime, text: string, engine: string, audio: string, reply: PipeReply)
    ensures var r := SendRequestToPipe(rt, text, engine, audio, reply);
      Count(r.ops, Close) == (if reply.Answers? && r.exit.Returned? then 1 else 0)
  {
    var r := SendRequestToPipe(rt, text, engine, audio, reply);
    if reply.Unreachable? {
      assert Count(r.ops, Close) == Count(r.ops[1..], Close);
    }
  }

  // ---------------------------------------------------------------------------
  // handle_actions
  // ---------------------------------------------------------------------------

  /** `SPVESACTIONS` bits (SAPI DDK). `SPVES_CONTINUE` is zero, so the source's test of it never fires. */
  const SPVES_CONTINUE: bv32 := 0
  const SPVES_ABORT: bv32 := 1
  const SPVES_SKIP: bv32 := 2
  const SPVES_RATE: bv32 := 4
  const SPVES_VOLUME: bv32 := 8

  predicate HasBit(actions: bv32, bit: bv32)
  {
    (actions & bit) != 0
  }

  predicate Aborts(actions: bv32)
  {
    HasBit(actions, SPVES_ABORT)
  }

  /** The calls the engine makes on `ISpTTSEngineSite` while polling. */
  datatype SiteCall = GetActions | GetSkipInfo | GetRate | GetVolume

  /** Position of each call in the poll's fixed order. */
  function Rank(c: SiteCall): nat
  {
    match c
    case GetActions => 0
    case GetSkipInfo => 1
    case GetRate => 2
    case GetVolume => 3
  }

  /** The return value of `handle_actions` and the site calls it made. */
  datatype ActionPoll = ActionPoll(code: int, calls: seq<SiteCall>)

  /**
   * `handle_actions`: read the action bits; on ABORT return 1 at once,
   * otherwise query skip, rate and volume for the bits that are set (the
   * values are only logged) and return 0.
   */
  function HandleActions(actions: bv32): (r: ActionPoll)
    ensures r.code == 1 <==> Aborts(actions)
    ensures r.code == 0 <==> !Aborts(actions)
    ensures |r.calls| >= 1 && r.calls[0] == GetActions
    ensures GetSkipInfo in r.calls <==> !Aborts(actions) && HasBit(actions, SPVES_SKIP)
    ensures GetRate in r.calls <==> !Aborts(actions) && HasBit(actions, SPVES_RATE)
    ensures GetVolume in r.calls <==> !Aborts(actions) && HasBit(actions, SPVES_VOLUME)
    ensures forall i, j :: 0 <= i < j < |r.calls| ==> Rank(r.calls[i]) < Rank(r.calls[j])
  {
    if HasBit(actions, SPVES_ABORT) then ActionPoll(1, [GetActions])
    else
      var skip := if HasBit(actions, SPVES_SKIP) then [GetSkipInfo] else [];
      var rate := if HasBit(actions, SPVES_RATE) then [GetRate] else [];
      var volume := if HasBit(actions, SPVES_VOLUME) then [GetVolume] else [];
      ActionPoll(0, [GetActions] + skip + rate + volume)
  }

  // ---------------------------------------------------------------------------
  // Speak
  // ---------------------------------------------------------------------------

  /** What `ISpTTSEngineSite::Write` answers: whether it returned S_OK, and the byte count it reports. */
  datatype SinkReply = SinkReply(accepted: bool, written: nat)

  /**
   * One `SPVTEXTFRAG`, together with what the outside world answers while the
   * engine handles it: the host's action bits, the helper's reply on the pipe
   * and the sink's acknowledgement of the write.
   */
  datatype Fragment = Fragment(text: string, actions: bv32, helper: PipeReply, sink: SinkReply)

  /** `Speak`'s result; `Unwound` is a jsoncpp exception escaping the COM method. */
  datatype HResult = S_OK | E_FAIL | Unwound

  /** Everything the engine does, in order: site queries, pipe operations, sink writes. */
  datatype Event = Site(call: SiteCall) | Pipe(op: PipeOp) | Output(data: string)

  datatype SpeakRun = SpeakRun(hr: HResult, events: seq<Event>)

  function SiteEvents(calls: seq<SiteCall>): (r: seq<Event>)
    ensures |r| == |calls|
    ensures forall i :: 0 <= i < |calls| ==> r[i] == Site(calls[i])
  {
    if |calls| == 0 then [] else [Site(calls[0])] + SiteEvents(calls[1..])
  }

  function PipeEvents(ops: seq<PipeOp>): (r: seq<Event>)
    ensures |r| == |ops|
    ensures forall i :: 0 <= i < |ops| ==> r[i] == Pipe(ops[i])
  {
    if |ops| == 0 then [] else [Pipe(ops[0])] + PipeEvents(ops[1..])
  }

  /** The request-and-read for one fragment, into a fresh `audio_data` vector. */
  function Fetch(rt: Runtime, engineName: string, f: Fragment): PipeCall
  {
    SendRequestToPipe(rt, Utf8Encode(rt, f.text), Utf8Encode(rt, engineName), [], f.helper)
  }

  /** The request the engine sends for a fragment. */
  function RequestFor(rt: Runtime, engineName: string, f: Fragment): Value
  {
    SpeakRequest(Utf8Encode(rt, f.text), Utf8Encode(rt, engineName))
  }

  /** The sink took the whole buffer. */
  predicate SinkTakes(f: Fragment, audio: string)
  {
    f.sink.accepted && f.sink.written == |audio|
  }

  /** The fragment goes through: no abort, the helper delivers, and the sink takes all of the audio. */
  predicate Completes(rt: Runtime, engineName: string, f: Fragment)
  {
    !Aborts(f.actions) && Delivers(rt, f.helper) && SinkTakes(f, DeliveredAudio(rt, f.helper))
  }

  /** The requests the fragments would cause, in list order. */
  function RequestsFor(rt: Runtime, engineName: string, frags: seq<Fragment>): (r: seq<Value>)
    ensures |r| == |frags|
    ensures forall i :: 0 <= i < |frags| ==> r[i] == RequestFor(rt, engineName, frags[i])
  {
    if |frags| == 0 then [] else [RequestFor(rt, engineName, frags[0])] + RequestsFor(rt, engineName, frags[1..])
  }

  /** The audio the fragments would fetch, in list order. */
  function AudiosFor(rt: Runtime, engineName: string, frags: seq<Fragment>): (r: seq<string>)
    ensures |r| == |frags|
    ensures forall i :: 0 <= i < |frags| ==> r[i] == DeliveredAudio(rt, frags[i].helper)
  {
    if |frags| == 0 then [] else [DeliveredAudio(rt, frags[0].helper)] + AudiosFor(rt, engineName, frags[1..])
  }

  /** The requests written to the pipe, in order. */
  function Requests(events: seq<Event>): seq<Value>
  {
    if |events| == 0 then []
    else (if events[0].Pipe? && events[0].op.Send? then [events[0].op.request] else []) + Requests(events[1..])
  }

  /** The buffers handed to the sink, in order. */
  function Outputs(events: seq<Event>): seq<string>
  {
    if |events| == 0 then []
    else (if events[0].Output? then [events[0].data] else []) + Outputs(events[1..])
  }

  /** The pipe writes and the sink writes only, in order. */
  function Io(events: seq<Event>): seq<Event>
  {
    if |events| == 0 then []
    else (if (events[0].Pipe? && events[0].op.Send?) || events[0].Output? then [events[0]] else []) + Io(events[1..])
  }

  lemma {:induction false} ProjectionsAppend(a: seq<Event>, b: seq<Event>)
    ensures Requests(a + b) == Requests(a) + Requests(b)
    ensures Outputs(a + b) == Outputs(a) + Outputs(b)
    ensures Io(a + b) == Io(a) + Io(b)
  {
    RequestsAppend(a, b);
    OutputsAppend(a, b);
    IoAppend(a, b);
  }

  lemma {:induction false} RequestsAppend(a: seq<Event>, b: seq<Event>)
    ensures Requests(a + b) == Requests(a) + Requests(b)
  {
    if |a| == 0 {
      assert a + b == b;
    } else {
      assert (a + b)[0] == a[0];
      assert (a + b)[1..] == a[1..] + b;
      RequestsAppend(a[1..], b);
    }
  }

  lemma {:induction false} OutputsAppend(a: seq<Event>, b: seq<Event>)
    ensures Outputs(a + b) == Outputs(a) + Outputs(b)
  {
    if |a| == 0 {
      assert a + b == b;
    } else {
      assert (a + b)[0] == a[0];
      assert (a + b)[1..] == a[1..] + b;
      OutputsAppend(a[1..], b);
    }
  }

  lemma {:induction false} IoAppend(a: seq<Event>, b: seq<Event>)
    ensures Io(a + b) == Io(a) + Io(b)
  {
    if |a| == 0 {
      assert a + b == b;
    } else {
      assert (a + b)[0] == a[0];
      assert (a + b)[1..] == a[1..] + b;
      var head := if (a[0].Pipe? && a[0].op.Send?) || a[0].Output? then [a[0]] else [];
      assert Io(a + b) == head + Io(a[1..] + b);
      assert Io(a) == head + Io(a[1..]);
      IoAppend(a[1..], b);
      assert head + (Io(a[1..]) + Io(b)) == (head + Io(a[1..])) + Io(b);
    }
  }

  lemma {:induction false} PollIsSilent(calls: seq<SiteCall>)
    ensures Requests(SiteEvents(calls)) == [] && Outputs(SiteEvents(calls)) == []
    ensures Io(SiteEvents(calls)) == []
  {
    if |calls| > 0 {
      assert SiteEvents(calls)[1..] == SiteEvents(calls[1..]);
      PollIsSilent(calls[1..]);
    }
  }

  lemma OneSilentEvent(e: Event)
    requires !e.Output? && !(e.Pipe? && e.op.Send?)
    ensures Requests([e]) == [] && Outputs([e]) == [] && Io([e]) == []
  {
    assert [e][1..] == [];
  }

  lemma ExchangeProjections(request: Value, data: string, closed: bool)
    ensures Requests(PipeEvents(ExchangeOps(request, data, closed))) == [request]
    ensures Outputs(PipeEvents(ExchangeOps(request, data, closed))) == []
    ensures Io(PipeEvents(ExchangeOps(request, data, closed))) == [Pipe(Send(request))]
  {
    var tail := if closed then [Pipe(Close)] else [];
    var es := PipeEvents(ExchangeOps(request, data, closed));
    assert es == [Pipe(Connect)] + [Pipe(Send(request))] + [Pipe(Receive(data))] + tail;
    if closed {
      OneSilentEvent(Pipe(Close));
    }
    ProjectionsAppend([Pipe(Connect)], [Pipe(Send(request))]);
    ProjectionsAppend([Pipe(Connect)] + [Pipe(Send(request))], [Pipe(Receive(data))]);
    ProjectionsAppend([Pipe(Connect)] + [Pipe(Send(request))] + [Pipe(Receive(data))], tail);
  }

  /** The pipe operations of one fetch contain its request, if the helper was reached, and no output. */
  lemma FetchProjections(rt: Runtime, engineName: string, f: Fragment)
    ensures Requests(PipeEvents(Fetch(rt, engineName, f).ops))
      == (if f.helper.Answers? then [RequestFor(rt, engineName, f)] else [])
    ensures Outputs(PipeEvents(Fetch(rt, engineName, f).ops)) == []
    ensures Io(PipeEvents(Fetch(rt, engineName, f).ops))
      == (if f.helper.Answers? then [Pipe(Send(RequestFor(rt, engineName, f)))] else [])
  {
    var call := Fetch(rt, engineName, f);
    if f.helper.Unreachable? {
      assert PipeEvents(call.ops) == [Pipe(Connect)];
    } else {
      ExchangeProjections(RequestFor(rt, engineName, f), Received(f.helper.sent), call.exit.Returned?);
    }
  }

  /** A fetch into an empty vector succeeds, fails or unwinds as the reply decides, and then holds exactly the delivered audio. */
  lemma FetchOutcome(rt: Runtime, engineName: string, f: Fragment)
    ensures Fetch(rt, engineName, f).exit == Returned(true) <==> Delivers(rt, f.helper)
    ensures Fetch(rt, engineName, f).exit == Threw <==> Unwinds(rt, f.helper)
    ensures Fetch(rt, engineName, f).exit == Returned(true) ==> Fetch(rt, engineName, f).audio == DeliveredAudio(rt, f.helper)
  {
    assert [] + DeliveredAudio(rt, f.helper) == DeliveredAudio(rt, f.helper);
  }

  /** How one pass of the loop body ends: on to the next fragment, or return this result. */
  datatype StepEnd = Next | Stop(hr: HResult)

  datatype StepRun = StepRun(end: StepEnd, events: seq<Event>)

  /**
   * The loop body after the action poll: fetch the audio, then write it to
   * the sink. A failed or unwinding fetch writes nothing; a delivered one
   * hands the sink exactly the delivered audio, after the pipe operations.
   */
  function FetchAndWrite(rt: Runtime, engineName: string, f: Fragment): (s: StepRun)
    ensures s.end == Next <==> Delivers(rt, f.helper) && SinkTakes(f, DeliveredAudio(rt, f.helper))
    ensures s.end != Stop(S_OK)
    ensures s.end == Stop(Unwound) <==> Unwinds(rt, f.helper)
    ensures s.events == PipeEvents(Fetch(rt, engineName, f).ops)
      + (if Delivers(rt, f.helper) then [Output(DeliveredAudio(rt, f.helper))] else [])
  {
    var call := Fetch(rt, engineName, f);
    var piped := PipeEvents(call.ops);
    FetchOutcome(rt, engineName, f);
    match call.exit
    case Threw =>
      assert piped + [] == piped;
      StepRun(Stop(Unwound), piped)
    case Returned(ok) =>
      if !ok then
        assert piped + [] == piped;
        StepRun(Stop(E_FAIL), piped)
      else
        var wrote := piped + [Output(call.audio)];
        if SinkTakes(f, call.audio) then StepRun(Next, wrote) else StepRun(Stop(E_FAIL), wrote)
  }

  /**
   * One pass of the loop body of `Engine::Speak`: poll the actions (an abort
   * returns S_OK), fetch the audio (a failure returns E_FAIL) and write it to
   * the sink (a failed or short write returns E_FAIL).
   */
  function SpeakStep(rt: Runtime, engineName: string, f: Fragment): (s: StepRun)
    ensures s.end == Next <==> Completes(rt, engineName, f)
    ensures s.end == Stop(S_OK) <==> Aborts(f.actions)
    ensures s.end == Stop(Unwound) <==> !Aborts(f.actions) && Unwinds(rt, f.helper)
  {
    var poll := HandleActions(f.actions);
    var polled := SiteEvents(poll.calls);
    if poll.code == 1 then StepRun(Stop(S_OK), polled)
    else
      var rest := FetchAndWrite(rt, engineName, f);
      StepRun(rest.end, polled + rest.events)
  }

  lemma OneOutputEvent(data: string)
    ensures Requests([Output(data)]) == [] && Outputs([Output(data)]) == [data] && Io([Output(data)]) == [Output(data)]
  {
    assert [Output(data)][1..] == [];
  }

  /** The fetch-and-write part shows the request, if the pipe opened, and then the delivered audio, if any. */
  lemma WriteProjections(rt: Runtime, engineName: string, f: Fragment)
    ensures Requests(FetchAndWrite(rt, engineName, f).events)
      == (if f.helper.Answers? then [RequestFor(rt, engineName, f)] else [])
    ensures Outputs(FetchAndWrite(rt, engineName, f).events)
      == (if Delivers(rt, f.helper) then [DeliveredAudio(rt, f.helper)] else [])
    ensures Io(FetchAndWrite(rt, engineName, f).events)
      == (if f.helper.Answers? then [Pipe(Send(RequestFor(rt, engineName, f)))] else [])
         + (if Delivers(rt, f.helper) then [Output(DeliveredAudio(rt, f.helper))] else [])
  {
    var piped := PipeEvents(Fetch(rt, engineName, f).ops);
    var wrote: seq<Event> := if Delivers(rt, f.helper) then [Output(DeliveredAudio(rt, f.helper))] else [];
    FetchProjections(rt, engineName, f);
    ProjectionsAppend(piped, wrote);
    if Delivers(rt, f.helper) {
      OneOutputEvent(DeliveredAudio(rt, f.helper));
    }
  }

  /**
   * What one pass shows the outside world: the request, unless the
   * fragment was aborted or the pipe did not open; then the delivered
   * audio, if there was any; and nothing else.
   */
  lemma StepProjections(rt: Runtime, engineName: string, f: Fragment)
    ensures Requests(SpeakStep(rt, engineName, f).events)
      == (if !Aborts(f.actions) && f.helper.Answers? then [RequestFor(rt, engineName, f)] else [])
    ensures Outputs(SpeakStep(rt, engineName, f).events)
      == (if !Aborts(f.actions) && Delivers(rt, f.helper) then [DeliveredAudio(rt, f.helper)] else [])
    ensures Io(SpeakStep(rt, engineName, f).events)
      == (if !Aborts(f.actions) && f.helper.Answers? then [Pipe(Send(RequestFor(rt, engineName, f)))] else [])
         + (if !Aborts(f.actions) && Delivers(rt, f.helper) then [Output(DeliveredAudio(rt, f.helper))] else [])
  {
    var calls := HandleActions(f.actions).calls;
    PollIsSilent(calls);
    if !Aborts(f.actions) {
      WriteProjections(rt, engineName, f);
      ProjectionsAppend(SiteEvents(calls), FetchAndWrite(rt, engineName, f).events);
    }
  }

  /** The loop of `Engine::Speak` over the outcomes of its passes: take them in order until one returns. */
  function RunSteps(steps: seq<StepRun>): SpeakRun
  {
    if |steps| == 0 then SpeakRun(S_OK, [])
    else
      match steps[0].end
      case Stop(hr) => SpeakRun(hr, steps[0].events)
      case Next =>
        var rest := RunSteps(steps[1..]);
        SpeakRun(rest.hr, steps[0].events + rest.events)
  }

  /** The pass each fragment would get; a pass depends on nothing but its own fragment. */
  function Steps(rt: Runtime, engineName: string, frags: seq<Fragment>): (r: seq<StepRun>)
    ensures |r| == |frags|
    ensures forall i :: 0 <= i < |frags| ==> r[i] == SpeakStep(rt, engineName, frags[i])
  {
    if |frags| == 0 then [] else [SpeakStep(rt, engineName, frags[0])] + Steps(rt, engineName, frags[1..])
  }

  /**
   * `Engine::Speak`: the loop body for each fragment in list order, until
   * one returns. Each pass starts afresh (a new `audio_data` vector, a new
   * pipe handle), so the loop is the passes run in order until one returns.
   */
  function Speak(rt: Runtime, engineName: string, frags: seq<Fragment>): SpeakRun
  {
    RunSteps(Steps(rt, engineName, frags))
  }

  // ---------------------------------------------------------------------------
  // SetObjectToken
  // ---------------------------------------------------------------------------

  /** The values read from the voice token, in the order they are read. */
  const TokenValueNames: seq<string> := ["", "Engine", "Path", "Module", "Class"]

  /** `TokenValueNames[i]` is the first value the token does not hold. */
  predicate FirstMissing(token: map<string, string>, i: int)
  {
    0 <= i < |TokenValueNames| && TokenValueNames[i] !in token
    && forall j :: 0 <= j < i ==> TokenValueNames[j] in token
  }

  /** The result of `SetObjectToken`: the engine configured, or the first token value that could not be read. */
  datatype TokenSetup =
    | Configured(engineName: string, sysPath: seq<string>, moduleName: string, className: string)
    | MissingValue(name: string)

  /**
   * The `;`-separated pieces of `path[offset..]`, found the way the loop in
   * `SetObjectToken` searches for them, with the next search starting just
   * after the separator found.
   */
  function SplitPathFrom(path: string, offset: nat): (r: seq<string>)
    requires offset <= |path|
    ensures |r| >= 1
    ensures Join(r, ';') == path[offset..]
    ensures forall i :: 0 <= i < |r| ==> ';' !in r[i]
    ensures |r| == Count(path[offset..], ';') + 1
    decreases |path| - offset
  {
    match Find(path, ';', offset)
    case None =>
      assert ';' !in path[offset..];
      CountAbsent(path[offset..], ';');
      [path[offset..]]
    case Some(pos) =>
      var rest := SplitPathFrom(path, pos + 1);
      assert path[offset..] == path[offset..pos] + [';'] + path[pos + 1..];
      assert ';' !in path[offset..pos];
      CountAbsent(path[offset..pos], ';');
      CountAppend(path[offset..pos], [';'], ';');
      CountAppend(path[offset..pos] + [';'], path[pos + 1..], ';');
      assert Count([';'], ';') == 1 + Count([';'][1..], ';');
      [path[offset..pos]] + rest
  }

  /** The directories appended to `sys.path`, with the offset advanced past each separator. */
  function SplitPath(path: string): seq<string>
  {
    SplitPathFrom(path, 0)
  }

  /**
   * `Engine::SetObjectToken`: read the voice name, `Engine`, `Path`,
   * `Module` and `Class` from the token, returning the first failure; then
   * remember the engine name and append each `;`-separated directory of
   * `Path` to `sys.path`.
   */
  function SetObjectToken(token: map<string, string>): (r: TokenSetup)
    ensures r.MissingValue? <==> exists i :: 0 <= i < |TokenValueNames| && TokenValueNames[i] !in token
    ensures r.MissingValue? ==> exists i :: FirstMissing(token, i) && TokenValueNames[i] == r.name
    ensures r.Configured? ==> "Engine" in token && r.engineName == token["Engine"]
    ensures r.Configured? ==> "Path" in token && Join(r.sysPath, ';') == token["Path"]
    ensures r.Configured? ==> forall i :: 0 <= i < |r.sysPath| ==> ';' !in r.sysPath[i]
  {
    if "" !in token then
      assert FirstMissing(token, 0);
      MissingValue("")
    else if "Engine" !in token then
      assert FirstMissing(token, 1);
      MissingValue("Engine")
    else if "Path" !in token then
      assert FirstMissing(token, 2);
      MissingValue("Path")
    else if "Module" !in token then
      assert FirstMissing(token, 3);
      MissingValue("Module")
    else if "Class" !in token then
      assert FirstMissing(token, 4);
      MissingValue("Class")
    else
      assert forall i :: 0 <= i < |TokenValueNames| ==> TokenValueNames[i] in token by {
        assert TokenValueNames == ["", "Engine", "Path", "Module", "Class"];
      }
      Configured(token["Engine"], SplitPath(token["Path"]), token["Module"], token["Class"])
  }

  /** The directories the loop as written appends, and whether `substr` threw `std::out_of_range`. */
  datatype SplitRun = SplitRun(appended: seq<string>, threw: bool)

  /**
   * The path loop exactly as written: after a separator at absolute index
   * `pos` it advances with `offset += pos + 1`, which overshoots once
   * `offset` is no longer zero.
   */
  function SplitPathAsWrittenFrom(path: string, offset: nat): (r: SplitRun)
    ensures !r.threw ==> |r.appended| >= 1
    ensures forall i :: 0 <= i < |r.appended| ==> ';' !in r.appended[i]
    decreases if offset <= |path| then |path| - offset + 1 else 0
  {
    match Find(path, ';', offset)
    case None =>
      if offset <= |path| then SplitRun([path[offset..]], false) else SplitRun([], true)
    case Some(pos) =>
      var rest := SplitPathAsWrittenFrom(path, offset + pos + 1);
      SplitRun([path[offset..pos]] + rest.appended, rest.threw)
  }

  function SplitPathAsWritten(path: string): SplitRun
  {
    SplitPathAsWrittenFrom(path, 0)
  }
}

=== FILE: engine_proofs.dfy ===
/**
 * Properties of the SAPI engine model: where `Speak` stops and what it has
 * requested and written by then, and the alternation of requests and writes.
 */
module EngineProofs {
  import opened Wrappers
  import opened Seqs
  import opened Text
  import opened Json
  import opened CppJson
  import opened Engine

  /** The index of the first fragment that does not go through, or the number of fragments. */
  function FirstIncomplete(rt: Runtime, engineName: string, frags: seq<Fragment>): (k: nat)
    ensures k <= |frags|
    ensures forall i :: 0 <= i < k ==> Completes(rt, engineName, frags[i])
    ensures k < |frags| ==> !Completes(rt, engineName, frags[k])
    decreases |frags|
  {
    if |frags| == 0 || !Completes(rt, engineName, frags[0]) then 0
    else 1 + FirstIncomplete(rt, engineName, frags[1..])
  }

  // ---------------------------------------------------------------------------
  // The loop, over any sequence of passes
  // ---------------------------------------------------------------------------

  /** The index of the first pass that returns, or the number of passes. */
  function FirstStop(steps: seq<StepRun>): (k: nat)
    ensures k <= |steps|
    ensures forall i :: 0 <= i < k ==> steps[i].end == Next
    ensures k < |steps| ==> steps[k].end.Stop?
    decreases |steps|
  {
    if |steps| == 0 || steps[0].end.Stop? then 0
    else 1 + FirstStop(steps[1..])
  }

  /** The number of passes that run: up to and including the one that returns. */
  function Ran(steps: seq<StepRun>): nat
  {
    var k := FirstStop(steps);
    if k < |steps| then k + 1 else k
  }

  /** The loop returns what the first returning pass returns, or S_OK when every pass goes on. */
  lemma {:induction false} RunVerdict(steps: seq<StepRun>)
    ensures var k := FirstStop(steps);
      RunSteps(steps).hr == (if k < |steps| then steps[k].end.hr else S_OK)
    decreases |steps|
  {
    if |steps| > 0 && steps[0].end == Next {
      RunVerdict(steps[1..]);
    }
  }

  /** The loop writes the outputs of the passes before the stop, in order, then those of the pass that returns. */
  lemma {:induction false} RunOutputs(steps: seq<StepRun>, before: seq<string>, last: seq<string>)
    requires |before| == FirstStop(steps)
    requires forall i :: 0 <= i < |before| ==> Outputs(steps[i].events) == [before[i]]
    requires |before| < |steps| ==> Outputs(steps[|before|].events) == last
    requires |before| == |steps| ==> last == []
    ensures Outputs(RunSteps(steps).events) == before + last
    decreases |steps|
  {
    if |steps| > 0 {
      if steps[0].end == Next {
        RunOutputs(steps[1..], before[1..], last);
        ProjectionsAppend(steps[0].events, RunSteps(steps[1..]).events);
        assert before == [before[0]] + before[1..];
      } else {
        assert before == [];
      }
    }
  }

  /** The loop sends the requests of the passes before the stop, in order, then those of the pass that returns. */
  lemma {:induction false} RunRequests(steps: seq<StepRun>, before: seq<Value>, last: seq<Value>)
    requires |before| == FirstStop(steps)
    requires forall i :: 0 <= i < |before| ==> Requests(steps[i].events) == [before[i]]
    requires |before| < |steps| ==> Requests(steps[|before|].events) == last
    requires |before| == |steps| ==> last == []
    ensures Requests(RunSteps(steps).events) == before + last
    decreases |steps|
  {
    if |steps| > 0 {
      if steps[0].end == Next {
        RunRequests(steps[1..], before[1..], last);
        ProjectionsAppend(steps[0].events, RunSteps(steps[1..]).events);
        assert before == [before[0]] + before[1..];
      } else {
        assert before == [];
      }
    }
  }

  /** Requests and sink writes alternate, starting with a request. */
  predicate Alternates(io: seq<Event>)
  {
    forall i :: 0 <= i < |io| ==> (io[i].Output? <==> i % 2 == 1)
  }

  lemma AlternatesAppend(a: seq<Event>, b: seq<Event>)
    requires Alternates(a) && |a| % 2 == 0 && Alternates(b)
    ensures Alternates(a + b)
  {
    forall i | 0 <= i < |a + b|
      ensures (a + b)[i].Output? <==> i % 2 == 1
    {
      if i >= |a| {
        assert (a + b)[i] == b[i - |a|];
      }
    }
  }

  /** When every pass alternates, and a pass that goes on ends on a write, the whole loop alternates. */
  lemma {:induction false} RunAlternates(steps: seq<StepRun>)
    requires forall i :: 0 <= i < |steps| ==> Alternates(Io(steps[i].events))
    requires forall i :: 0 <= i < |steps| && steps[i].end == Next ==> |Io(steps[i].events)| % 2 == 0
    ensures Alternates(Io(RunSteps(steps).events))
    decreases |steps|
  {
    if |steps| > 0 && steps[0].end == Next {
      RunAlternates(steps[1..]);
      ProjectionsAppend(steps[0].events, RunSteps(steps[1..]).events);
      AlternatesAppend(Io(steps[0].events), Io(RunSteps(steps[1..]).events));
    }
  }

  // ---------------------------------------------------------------------------
  // Engine::Speak
  // ---------------------------------------------------------------------------

  /** The pass that returns is the first fragment that does not go through. */
  lemma StopsAtFirstIncomplete(rt: Runtime, engineName: string, frags: seq<Fragment>)
    ensures FirstStop(Steps(rt, engineName, frags)) == FirstIncomplete(rt, engineName, frags)
  {
    var steps := Steps(rt, engineName, frags);
    var k := FirstIncomplete(rt, engineName, frags);
    var j := FirstStop(steps);
    assert j < |steps| ==> !Completes(rt, engineName, frags[j]);
    assert k < |frags| ==> steps[k].end != Next;
  }

  /**
   * `Speak` returns S_OK exactly when every fragment goes through or the
   * first one that does not was aborted; it unwinds exactly when that
   * fragment's response made jsoncpp throw; otherwise it returns E_FAIL.
   */
  lemma SpeakVerdict(rt: Runtime, engineName: string, frags: seq<Fragment>)
    ensures var k := FirstIncomplete(rt, engineName, frags);
      Speak(rt, engineName, frags).hr == S_OK <==> k == |frags| || Aborts(frags[k].actions)
    ensures var k := FirstIncomplete(rt, engineName, frags);
      Speak(rt, engineName, frags).hr == Unwound <==> k < |frags| && !Aborts(frags[k].actions) && Unwinds(rt, frags[k].helper)
    ensures var k := FirstIncomplete(rt, engineName, frags);
      Speak(rt, engineName, frags).hr == E_FAIL <==> k < |frags| && !Aborts(frags[k].actions) && !Unwinds(rt, frags[k].helper)
  {
    StopsAtFirstIncomplete(rt, engineName, frags);
    RunVerdict(Steps(rt, engineName, frags));
  }

  /**
   * The sink receives the audio of the fragments before the stop index, in
   * order, and one more buffer only when the stopping fragment's audio was
   * delivered but the sink did not take all of it.
   */
  lemma SpeakWrites(rt: Runtime, engineName: string, frags: seq<Fragment>)
    ensures var k := FirstIncomplete(rt, engineName, frags);
      Outputs(Speak(rt, engineName, frags).events)
        == AudiosFor(rt, engineName, frags[..k])
           + (if k < |frags| && !Aborts(frags[k].actions) && Delivers(rt, frags[k].helper)
              then [DeliveredAudio(rt, frags[k].helper)] else [])
  {
    var steps := Steps(rt, engineName, frags);
    var k := FirstIncomplete(rt, engineName, frags);
    var before := AudiosFor(rt, engineName, frags[..k]);
    StopsAtFirstIncomplete(rt, engineName, frags);
    forall i | 0 <= i < k
      ensures Outputs(steps[i].events) == [before[i]]
    {
      StepProjections(rt, engineName, frags[i]);
    }
    if k < |frags| {
      StepProjections(rt, engineName, frags[k]);
    }
    RunOutputs(steps, before,
      if k < |frags| && !Aborts(frags[k].actions) && Delivers(rt, frags[k].helper)
      then [DeliveredAudio(rt, frags[k].helper)] else []);
  }

  /**
   * One request goes to the helper per fragment before the stop index, in
   * order, plus one for the stopping fragment when it was not aborted and
   * the pipe opened; no later fragment is ever requested.
   */
  lemma SpeakRequests(rt: Runtime, engineName: string, frags: seq<Fragment>)
    ensures var k := FirstIncomplete(rt, engineName, frags);
      Requests(Speak(rt, engineName, frags).events)
        == RequestsFor(rt, engineName, frags[..k])
           + (if k < |frags| && !Aborts(frags[k].actions) && frags[k].helper.Answers?
              then [RequestFor(rt, engineName, frags[k])] else [])
  {
    var steps := Steps(rt, engineName, frags);
    var k := FirstIncomplete(rt, engineName, frags);
    var before := RequestsFor(rt, engineName, frags[..k]);
    StopsAtFirstIncomplete(rt, engineName, frags);
    forall i | 0 <= i < k
      ensures Requests(steps[i].events) == [before[i]]
    {
      StepProjections(rt, engineName, frags[i]);
      assert frags[i].helper.Answers?;
    }
    if k < |frags| {
      StepProjections(rt, engineName, frags[k]);
    }
    RunRequests(steps, before,
      if k < |frags| && !Aborts(frags[k].actions) && frags[k].helper.Answers?
      then [RequestFor(rt, engineName, frags[k])] else []);
  }

  /** One pass shows a request, then at most one write; a pass that goes on shows both. */
  lemma StepAlternates(rt: Runtime, engineName: string, f: Fragment)
    ensures Alternates(Io(SpeakStep(rt, engineName, f).events))
    ensures SpeakStep(rt, engineName, f).end == Next ==> |Io(SpeakStep(rt, engineName, f).events)| % 2 == 0
  {
    StepProjections(rt, engineName, f);
    var sent := !Aborts(f.actions) && f.helper.Answers?;
    var delivered := !Aborts(f.actions) && Delivers(rt, f.helper);
    assert delivered ==> sent;
    RequestThenWrite(SpeakStep(rt, engineName, f), Pipe(Send(RequestFor(rt, engineName, f))), DeliveredAudio(rt, f.helper), sent, delivered);
  }

  /** A pass showing at most one request and then at most one write alternates; one that goes on shows both. */
  lemma RequestThenWrite(s: StepRun, request: Event, audio: string, sent: bool, delivered: bool)
    requires !request.Output?
    requires delivered ==> sent
    requires s.end == Next ==> delivered
    requires Io(s.events) == (if sent then [request] else []) + (if delivered then [Output(audio)] else [])
    ensures Alternates(Io(s.events))
    ensures s.end == Next ==> |Io(s.events)| % 2 == 0
  {
  }

  /**
   * Fragments are never pipelined: the audio of fragment N reaches the sink
   * before fragment N+1 is requested.
   */
  lemma SpeakAlternates(rt: Runtime, engineName: string, frags: seq<Fragment>)
    ensures Alternates(Io(Speak(rt, engineName, frags).events))
  {
    var steps := Steps(rt, engineName, frags);
    forall i | 0 <= i < |steps|
      ensures Alternates(Io(steps[i].events))
      ensures steps[i].end == Next ==> |Io(steps[i].events)| % 2 == 0
    {
      StepAlternates(rt, engineName, frags[i]);
    }
    RunAlternates(steps);
  }
}

=== FILE: json.dfy ===
/**
 * A JSON document as the parsers on both sides of the pipes deliver it.
 * Numbers are integers; an object keeps its members in the order its parser
 * delivers them (key order for jsoncpp, insertion order for Python's dict).
 */
module Json {
  import opened Wrappers

  datatype Value =
    | Null
    | Bool(b: bool)
    | Int(i: int)
    | Str(s: string)
    | Arr(items: seq<Value>)
    | Obj(members: seq<(string, Value)>)

  /** The value of the first member named `key`. */
  function Lookup(members: seq<(string, Value)>, key: string): (r: Option<Value>)
    ensures r.Some? ==> exists i :: 0 <= i < |members| && members[i] == (key, r.value)
    ensures r.None? <==> forall i :: 0 <= i < |members| ==> members[i].0 != key
  {
    if |members| == 0 then None
    else if members[0].0 == key then Some(members[0].1)
    else Lookup(members[1..], key)
  }

  /** The member names, in order. */
  function Keys<V>(members: seq<(string, V)>): (r: seq<string>)
    ensures |r| == |members|
    ensures forall i :: 0 <= i < |members| ==> r[i] == members[i].0
  {
    if |members| == 0 then [] else [members[0].0] + Keys(members[1..])
  }

  /** The member values, in order. */
  function MemberValues(members: seq<(string, Value)>): (r: seq<Value>)
    ensures |r| == |members|
    ensures forall i :: 0 <= i < |members| ==> r[i] == members[i].1
  {
    if |members| == 0 then [] else [members[0].1] + MemberValues(members[1..])
  }
}

=== FILE: path_proofs.dfy ===
/**
 * The `sys.path` loop of `Engine::SetObjectToken`: the loop as written
 * advances past each separator by `pos + 1` from the current offset rather
 * than to `pos + 1`, so from the third directory on it loses text or throws.
 */
module PathProofs {
  import opened Wrappers
  import opened Seqs
  import opened Text
  import opened Engine

  /** With at most one separator, the loop as written appends the same directories as the corrected one. */
  lemma SplitAsWrittenAgreesUpToOneSeparator(path: string)
    requires Count(path, ';') <= 1
    ensures SplitPathAsWritten(path) == SplitRun(SplitPath(path), false)
  {
    match Find(path, ';', 0)
    case None =>
      SplitLast(path, 0);
      AsWrittenLast(path, 0);
    case Some(pos) =>
      SplitStep(path, 0, pos);
      AsWrittenStep(path, 0, pos);
      match Find(path, ';', pos + 1)
      case None =>
        SplitLast(path, pos + 1);
        AsWrittenLast(path, pos + 1);
      case Some(_) =>
        assert false;
  }

  lemma SplitStep(path: string, offset: nat, pos: nat)
    requires offset <= |path| && Find(path, ';', offset) == Some(pos)
    ensures SplitPathFrom(path, offset) == [path[offset..pos]] + SplitPathFrom(path, pos + 1)
  {
  }

  lemma SplitLast(path: string, offset: nat)
    requires offset <= |path| && Find(path, ';', offset) == None
    ensures SplitPathFrom(path, offset) == [path[offset..]]
  {
  }

  lemma AsWrittenStep(path: string, offset: nat, pos: nat)
    requires Find(path, ';', offset) == Some(pos)
    ensures SplitPathAsWrittenFrom(path, offset)
      == SplitRun([path[offset..pos]] + SplitPathAsWrittenFrom(path, offset + pos + 1).appended,
                  SplitPathAsWrittenFrom(path, offset + pos + 1).threw)
  {
  }

  lemma AsWrittenLast(path: string, offset: nat)
    requires Find(path, ';', offset) == None
    ensures SplitPathAsWrittenFrom(path, offset)
      == if offset <= |path| then SplitRun([path[offset..]], false) else SplitRun([], true)
  {
  }

  /** The corrected loop keeps every piece of a three-piece path. */
  lemma SplitPathKeepsText(p: string)
    requires p == "a;bc;def"
    ensures SplitPath(p) == ["a", "bc", "def"]
  {
    FindAt(p, ';', 0, 1);
    FindAt(p, ';', 2, 4);
    FindNone(p, ';', 5);
    SplitStep(p, 0, 1);
    SplitStep(p, 2, 4);
    SplitLast(p, 5);
    assert p[0..1] == "a";
    assert p[2..4] == "bc";
    assert p[5..] == "def";
  }

  /**
   * With three pieces the loop as written drops text without any error:
   * the third search starts at 2 + 4 + 1 = 7 instead of 5, so "de" is lost.
   */
  lemma SplitAsWrittenDropsText(p: string)
    requires p == "a;bc;def"
    ensures SplitPathAsWritten(p) == SplitRun(["a", "bc", "f"], false)
  {
    FindAt(p, ';', 0, 1);
    FindAt(p, ';', 2, 4);
    FindNone(p, ';', 7);
    AsWrittenStep(p, 0, 1);
    AsWrittenStep(p, 2, 4);
    AsWrittenLast(p, 7);
    assert p[0..1] == "a";
    assert p[2..4] == "bc";
    assert p[7..] == "f";
  }

  /** When the overshoot passes the end of the path, `substr` throws `std::out_of_range`. */
  lemma SplitAsWrittenThrows(p: string)
    requires p == "a;b;c"
    ensures SplitPath(p) == ["a", "b", "c"]
    ensures SplitPathAsWritten(p) == SplitRun(["a", "b"], true)
  {
    FindAt(p, ';', 0, 1);
    FindAt(p, ';', 2, 3);
    FindNone(p, ';', 4);
    FindNone(p, ';', 6);
    SplitStep(p, 0, 1);
    SplitStep(p, 2, 3);
    SplitLast(p, 4);
    AsWrittenStep(p, 0, 1);
    AsWrittenStep(p, 2, 3);
    AsWrittenLast(p, 6);
    assert p[0..1] == "a";
    assert p[2..3] == "b";
    assert p[4..] == "c";
  }

  /**
   * What the loop as written appends from `offset` on, when it does not
   * throw, joins to no more text than is left after `offset`: each step
   * skips at least as much as the corrected loop does.
   */
  lemma {:induction false} AsWrittenJoinsShorter(path: string, offset: nat)
    ensures var run := SplitPathAsWrittenFrom(path, offset);
      !run.threw ==> offset <= |path| && |run.appended| >= 1 && |Join(run.appended, ';')| <= |path| - offset
    decreases if offset <= |path| then |path| - offset + 1 else 0
  {
    match Find(path, ';', offset)
    case None =>
      AsWrittenLast(path, offset);
    case Some(pos) =>
      var next := offset + pos + 1;
      AsWrittenStep(path, offset, pos);
      AsWrittenJoinsShorter(path, next);
      var rest := SplitPathAsWrittenFrom(path, next);
      if !rest.threw {
        var parts := [path[offset..pos]] + rest.appended;
        assert parts[1..] == rest.appended;
        assert Join(parts, ';') == path[offset..pos] + [';'] + Join(rest.appended, ';');
      }
  }

  /** A search finds a separator wherever one is counted. */
  lemma FindsWhenCounted(path: string, from: nat)
    requires from <= |path| && Count(path[from..], ';') >= 1
    ensures Find(path, ';', from).Some?
  {
    if Find(path, ';', from).None? {
      assert ';' !in path[from..];
      CountAbsent(path[from..], ';');
      assert false;
    }
  }

  /** A path with two or more separators has a first and a second one. */
  lemma TwoSeparatorsFound(path: string)
    requires Count(path, ';') >= 2
    ensures Find(path, ';', 0).Some? && Find(path, ';', Find(path, ';', 0).value + 1).Some?
  {
    assert path[0..] == path;
    FindsWhenCounted(path, 0);
    var p1 := Find(path, ';', 0).value;
    assert path == path[..p1] + [';'] + path[p1 + 1..];
    assert ';' !in path[..p1];
    CountAbsent(path[..p1], ';');
    CountAppend(path[..p1], [';'], ';');
    CountAppend(path[..p1] + [';'], path[p1 + 1..], ';');
    assert Count([';'], ';') == 1 + Count([';'][1..], ';');
    FindsWhenCounted(path, p1 + 1);
  }

  /**
   * Once the offset is past zero, a step of the loop as written skips
   * `offset` characters beyond the separator, so less text is appended
   * than remains after the offset.
   */
  lemma AsWrittenLosesTextPastZero(path: string, offset: nat, pos: nat)
    requires offset > 0 && Find(path, ';', offset) == Some(pos)
    ensures !SplitPathAsWrittenFrom(path, offset).threw
      ==> |Join(SplitPathAsWrittenFrom(path, offset).appended, ';')| < |path| - offset
  {
    AsWrittenStep(path, offset, pos);
    AsWrittenJoinsShorter(path, offset + pos + 1);
    var rest := SplitPathAsWrittenFrom(path, offset + pos + 1);
    if !rest.threw {
      var parts := [path[offset..pos]] + rest.appended;
      assert parts[1..] == rest.appended;
      assert Join(parts, ';') == path[offset..pos] + [';'] + Join(rest.appended, ';');
    }
  }

  /** With a first and a second separator, the loop as written appends less text than the path holds. */
  lemma AsWrittenLosesText(path: string, p1: nat, p2: nat)
    requires Find(path, ';', 0) == Some(p1) && Find(path, ';', p1 + 1) == Some(p2)
    ensures !SplitPathAsWritten(path).threw ==> |Join(SplitPathAsWritten(path).appended, ';')| < |path|
  {
    AsWrittenStep(path, 0, p1);
    AsWrittenLosesTextPastZero(path, p1 + 1, p2);
    var rest := SplitPathAsWrittenFrom(path, p1 + 1);
    if !rest.threw {
      AsWrittenJoinsShorter(path, p1 + 1);
      var parts := [path[0..p1]] + rest.appended;
      assert parts[1..] == rest.appended;
      assert Join(parts, ';') == path[0..p1] + [';'] + Join(rest.appended, ';');
    }
  }

  /**
   * For every path with two or more separators the loop as written goes
   * wrong: it either throws or appends other directories than the
   * corrected loop, which together hold all of the path's text.
   */
  lemma {:induction false} SplitAsWrittenWrongFromTwoSeparators(path: string)
    requires Count(path, ';') >= 2
    ensures SplitPathAsWritten(path) != SplitRun(SplitPath(path), false)
  {
    TwoSeparatorsFound(path);
    var p1 := Find(path, ';', 0).value;
    var p2 := Find(path, ';', p1 + 1).value;
    AsWrittenLosesText(path, p1, p2);
    assert path[0..] == path;
    assert |Join(SplitPath(path), ';')| == |path|;
  }
}

=== FILE: pipe_voice.dfy ===
/**
 * The Python voice that speaks through the helper pipe: `PipeClient.send_request`
 * and the generator `VoiceServerVoice.speak`.
 */
module PipeVoice {
  import opened Wrappers
  import opened Seqs
  import opened Json
  import opened Python
  import Engine

  /** The size of the one read the response is taken from. */
  const ReadSize: nat := 65536

  /** What a Python call gave: a value, or an exception with its message. */
  datatype Outcome<T> = Ok(value: T) | Failed(message: string)

  /**
   * What the helper pipe does with one request: `CreateFile` fails with a
   * message, or the pipe opens, the write succeeds or fails, the read
   * succeeds or fails, and the helper sends back these bytes.
   */
  datatype Connection =
    | Refused(error: string)
    | Opened(writeError: Option<string>, readError: Option<string>, reply: seq<byte>)

  /** The dictionary `send_request` returns from its exception handler. */
  function ErrorResponse(message: string): (r: Value)
    ensures r.Obj? && Keys(r.members) == ["status", "message"]
    ensures Lookup(r.members, "status") == Some(Str("error"))
    ensures Lookup(r.members, "message") == Some(Str(message))
  {
    var members := [("status", Str("error")), ("message", Str(message))];
    assert Lookup(members[1..], "message") == Some(Str(message));
    Obj(members)
  }

  /**
   * `send_request` once the pipe is open: write the request, take one read
   * of at most `ReadSize` bytes and parse it (`parse` stands for decoding
   * and `json.loads`); an exception becomes the error dictionary.
   */
  function Exchange(writeError: Option<string>, readError: Option<string>, reply: seq<byte>,
                    parse: seq<byte> -> Outcome<Value>): (r: Value)
    ensures writeError.Some? ==> r == ErrorResponse(writeError.value)
    ensures writeError.None? && readError.Some? ==> r == ErrorResponse(readError.value)
    ensures writeError.None? && readError.None? && parse(Take(reply, ReadSize)).Ok?
      ==> r == parse(Take(reply, ReadSize)).value
    ensures writeError.None? && readError.None? && parse(Take(reply, ReadSize)).Failed?
      ==> r == ErrorResponse(parse(Take(reply, ReadSize)).message)
  {
    match (writeError, readError)
    case (Some(message), _) => ErrorResponse(message)
    case (None, Some(message)) => ErrorResponse(message)
    case (None, None) =>
      match parse(Take(reply, ReadSize))
      case Ok(response) => response
      case Failed(message) => ErrorResponse(message)
  }

  /**
   * `send_request` as written: when `CreateFile` raises, the `finally`
   * clause closes the never-assigned `pipe`, so the call raises instead of
   * returning the error dictionary.
   */
  function SendRequestAsWritten(conn: Connection, parse: seq<byte> -> Outcome<Value>): (r: Py<Value>)
    ensures r.Raise? <==> conn.Refused?
  {
    match conn
    case Refused(_) => Raise
    case Opened(writeError, readError, reply) => Ret(Exchange(writeError, readError, reply, parse))
  }

  /** `send_request` with every exception, the failed open included, answered by the error dictionary. */
  function SendRequest(conn: Connection, parse: seq<byte> -> Outcome<Value>): (r: Value)
    ensures conn.Refused? ==> r == ErrorResponse(conn.error)
    ensures conn.Opened? ==> r == Exchange(conn.writeError, conn.readError, conn.reply, parse)
  {
    match conn
    case Refused(error) => ErrorResponse(error)
    case Opened(writeError, readError, reply) => Exchange(writeError, readError, reply, parse)
  }

  lemma SendRequestAgrees(conn: Connection, parse: seq<byte> -> Outcome<Value>)
    ensures conn.Opened? ==> SendRequestAsWritten(conn, parse) == Ret(SendRequest(conn, parse))
  {
  }

  /** When the helper is not running, the call as written raises where the error dictionary was meant. */
  lemma RefusedOpenRaises(error: string, parse: seq<byte> -> Outcome<Value>)
    ensures SendRequestAsWritten(Refused(error), parse).Raise?
    ensures Lookup(SendRequest(Refused(error), parse).members, "status") == Some(Str("error"))
  {
  }

  /**
   * The request `speak` sends: exactly `action`, `engine` and `text`, in
   * that order. It is the same object the C++ engine sends for a fragment.
   */
  function SpeakRequest(engineName: string, text: string): (r: Value)
    ensures r.Obj? && Keys(r.members) == ["action", "engine", "text"]
    ensures Lookup(r.members, "action") == Some(Str("speak"))
    ensures Lookup(r.members, "engine") == Some(Str(engineName))
    ensures Lookup(r.members, "text") == Some(Str(text))
  {
    Engine.SpeakRequest(text, engineName)
  }

  /** What the generator produced: the request sent, the byte strings yielded, and whether it ended in an exception. */
  datatype Spoken = Spoken(request: Value, chunks: seq<seq<byte>>, raised: bool)

  /** `yield bytes(chunk)` for each chunk in turn, stopping at the first one `bytes` rejects. */
  function YieldBytes(items: seq<Value>): (r: (seq<seq<byte>>, bool))
    ensures |r.0| <= |items|
    ensures forall i :: 0 <= i < |r.0| ==> Bytes(items[i]) == Ret(r.0[i])
    ensures r.1 <==> |r.0| < |items|
    ensures r.1 ==> Bytes(items[|r.0|]).Raise?
  {
    if |items| == 0 then ([], false)
    else match Bytes(items[0])
      case Raise => ([], true)
      case Ret(b) =>
        var rest := YieldBytes(items[1..]);
        ([b] + rest.0, rest.1)
  }

  /**
   * `VoiceServerVoice.speak`: send the request; on status "success" yield
   * one byte string per element of `audio_data`, in order; on any other
   * status yield nothing. A response that is not a dict, a missing or
   * non-iterable `audio_data`, or a chunk `bytes` rejects raises.
   */
  function Speak(engineName: string, text: string, conn: Connection, parse: seq<byte> -> Outcome<Value>): (r: Spoken)
    ensures r.request == SpeakRequest(engineName, text)
    ensures Status(SendRequest(conn, parse)).Ret? && Status(SendRequest(conn, parse)).value != Some(Str("success"))
      ==> r.chunks == [] && !r.raised
    ensures r.chunks != [] ==> Status(SendRequest(conn, parse)) == Ret(Some(Str("success")))
    ensures Status(SendRequest(conn, parse)) == Ret(Some(Str("success"))) && AudioItems(SendRequest(conn, parse)).Some?
      ==> var items := AudioItems(SendRequest(conn, parse)).value;
          |r.chunks| <= |items|
          && (forall i :: 0 <= i < |r.chunks| ==> Bytes(items[i]) == Ret(r.chunks[i]))
          && (r.raised <==> |r.chunks| < |items|)
          && (r.raised ==> Bytes(items[|r.chunks|]).Raise?)
    ensures Status(SendRequest(conn, parse)).Raise? ==> r.chunks == [] && r.raised
    ensures Status(SendRequest(conn, parse)) == Ret(Some(Str("success"))) && AudioItems(SendRequest(conn, parse)).None?
      ==> r.chunks == [] && r.raised
  {
    var request := SpeakRequest(engineName, text);
    var response := SendRequest(conn, parse);
    match Status(response)
    case Raise => Spoken(request, [], true)
    case Ret(status) =>
      if status != Some(Str("success")) then Spoken(request, [], false)
      else match AudioItems(response)
        case None => Spoken(request, [], true)
        case Some(items) =>
          var (chunks, raised) := YieldBytes(items);
          Spoken(request, chunks, raised)
  }

  /** `response.get("status")`. */
  function Status(response: Value): Py<Option<Value>>
  {
    Get(response, "status")
  }

  /** What `for chunk in response["audio_data"]` visits, or `None` when that raises. */
  function AudioItems(response: Value): (r: Option<seq<Value>>)
    ensures r.Some? <==> Index(response, "audio_data").Ret? && Iter(Index(response, "audio_data").value).Ret?
  {
    match Index(response, "audio_data")
    case Raise => None
    case Ret(audio) =>
      match Iter(audio)
      case Raise => None
      case Ret(items) => Some(items)
  }

  /**
   * Audio chunks sent as JSON strings make the generator raise on the first
   * one: `bytes` of a string without an encoding is a `TypeError`.
   */
  lemma StringChunksRaise(engineName: string, text: string, conn: Connection, parse: seq<byte> -> Outcome<Value>, first: string, more: seq<Value>)
    requires Status(SendRequest(conn, parse)) == Ret(Some(Str("success")))
    requires AudioItems(SendRequest(conn, parse)) == Some([Str(first)] + more)
    ensures Speak(engineName, text, conn, parse).chunks == []
    ensures Speak(engineName, text, conn, parse).raised
  {
  }
}

=== FILE: python.dfy ===
/**
 * The Python built-ins the voice helpers apply to decoded JSON: `dict.get`,
 * subscription, iteration and `bytes(...)`, each with the exception Python
 * raises when the value has the wrong kind.
 */
module Python {
  import opened Wrappers
  import opened Json

  type byte = x: int | 0 <= x < 256

  /** The outcome of a Python expression that may raise. */
  datatype Py<+T> = Ret(value: T) | Raise

  /** `d.get(key)`: `None` when the key is missing; raises when `d` is not a dict. */
  function Get(d: Value, key: string): (r: Py<Option<Value>>)
    ensures r.Raise? <==> !d.Obj?
  {
    match d
    case Obj(members) => Ret(Lookup(members, key))
    case _ => Raise
  }

  /** `d[key]` with a string key: raises on a missing key and on anything but a dict. */
  function Index(d: Value, key: string): (r: Py<Value>)
    ensures r.Ret? <==> d.Obj? && Lookup(d.members, key).Some?
  {
    match d
    case Obj(members) =>
      (match Lookup(members, key)
       case Some(v) => Ret(v)
       case None => Raise)
    case _ => Raise
  }

  /** What a `for` loop visits: list items, dict keys, one-character strings; other kinds raise. */
  function Iter(v: Value): (r: Py<seq<Value>>)
    ensures r.Ret? <==> v.Arr? || v.Obj? || v.Str?
    ensures v.Arr? ==> r == Ret(v.items)
  {
    match v
    case Arr(items) => Ret(items)
    case Obj(members) => Ret(KeyValues(Keys(members)))
    case Str(s) => Ret(CharValues(s))
    case _ => Raise
  }

  function KeyValues(keys: seq<string>): (r: seq<Value>)
    ensures |r| == |keys|
    ensures forall i :: 0 <= i < |keys| ==> r[i] == Str(keys[i])
  {
    if |keys| == 0 then [] else [Str(keys[0])] + KeyValues(keys[1..])
  }

  function CharValues(s: string): (r: seq<Value>)
    ensures |r| == |s|
    ensures forall i :: 0 <= i < |s| ==> r[i] == Str([s[i]])
  {
    if |s| == 0 then [] else [Str([s[0]])] + CharValues(s[1..])
  }

  function Zeros(n: nat): (r: seq<byte>)
    ensures |r| == n
    ensures forall i :: 0 <= i < n ==> r[i] == 0
  {
    if n == 0 then [] else [0] + Zeros(n - 1)
  }

  /** One element of an iterable passed to `bytes`: an int (a bool counts as 0 or 1) in 0..255. */
  function ByteOf(v: Value): Option<byte>
  {
    match v
    case Int(n) => if 0 <= n < 256 then Some(n as byte) else None
    case Bool(b) => Some(if b then 1 else 0)
    case _ => None
  }

  function ListBytes(items: seq<Value>): (r: Option<seq<byte>>)
    ensures r.Some? <==> forall i :: 0 <= i < |items| ==> ByteOf(items[i]).Some?
    ensures r.Some? ==> |r.value| == |items|
    ensures r.Some? ==> forall i :: 0 <= i < |items| ==> Some(r.value[i]) == ByteOf(items[i])
  {
    if |items| == 0 then Some([])
    else match (ByteOf(items[0]), ListBytes(items[1..]))
      case (Some(b), Some(rest)) => Some([b] + rest)
      case _ => None
  }

  /**
   * `bytes(v)`: a non-negative int gives that many zero bytes (a bool is the
   * int 0 or 1), a list of ints in 0..255 gives those bytes, an empty dict
   * gives nothing; a string (no encoding given), null, a negative int, a
   * non-empty dict or a list with a bad element raises.
   */
  function Bytes(v: Value): (r: Py<seq<byte>>)
    ensures v.Str? || v.Null? ==> r.Raise?
  {
    match v
    case Int(n) => if n >= 0 then Ret(Zeros(n)) else Raise
    case Bool(b) => Ret(Zeros(if b then 1 else 0))
    case Arr(items) =>
      (match ListBytes(items)
       case Some(bs) => Ret(bs)
       case None => Raise)
    case Obj(members) => if |members| == 0 then Ret([]) else Raise
    case _ => Raise
  }
}

=== FILE: register_client.dfy ===
/**
 * The registration client's logic outside its window: reading a reply until
 * a short chunk, decompressing it, filtering voices by language, and the
 * `set_voice` requests sent for the selected voices.
 */
module RegisterClient {
  import opened Wrappers
  import opened Seqs
  import opened Text
  import opened Json
  import opened Python
  import VoiceServer

  /** The size of every `ReadFile` on the reply. */
  const ReadSize: nat := 65536

  // ---------------------------------------------------------------------------
  // receive_and_decompress
  // ---------------------------------------------------------------------------

  /** The index of the first read that returns fewer than `ReadSize` bytes, if any does. */
  function FirstShort(replies: seq<seq<byte>>): (r: Option<nat>)
    ensures r.Some? ==> r.value < |replies| && |replies[r.value]| < ReadSize
    ensures r.Some? ==> forall j :: 0 <= j < r.value ==> |replies[j]| >= ReadSize
    ensures r.None? <==> forall j :: 0 <= j < |replies| ==> |replies[j]| >= ReadSize
  {
    if |replies| == 0 then None
    else if |replies[0]| < ReadSize then Some(0)
    else match FirstShort(replies[1..])
      case None => None
      case Some(k) => Some(k + 1)
  }

  lemma FirstShortAt(replies: seq<seq<byte>>, k: nat)
    requires k < |replies| && |replies[k]| < ReadSize
    requires forall j :: 0 <= j < k ==> |replies[j]| >= ReadSize
    ensures FirstShort(replies) == Some(k)
  {
  }

  /**
   * The read loop: append every chunk read, and stop after the first one
   * shorter than `ReadSize`. The replies the pipe would deliver are the input;
   * `None` when they run out first (the pipe breaks and `ReadFile` raises).
   */
  method Receive(replies: seq<seq<byte>>) returns (buffer: Option<seq<byte>>)
    ensures buffer.Some? <==> FirstShort(replies).Some?
    ensures buffer.Some? ==> buffer.value == Flatten(replies[..FirstShort(replies).value + 1])
  {
    var acc: seq<byte> := [];
    var n := 0;
    while n < |replies|
      invariant 0 <= n <= |replies|
      invariant forall j :: 0 <= j < n ==> |replies[j]| >= ReadSize
      invariant acc == Flatten(replies[..n])
    {
      var chunk := replies[n];
      FlattenSnoc(replies[..n], chunk);
      assert replies[..n + 1] == replies[..n] + [chunk];
      acc := acc + chunk;
      if |chunk| < ReadSize {
        FirstShortAt(replies, n);
        return Some(acc);
      }
      n := n + 1;
    }
    return None;
  }

  /**
   * `receive_and_decompress`: the received buffer through `zlib.decompress`
   * (`None` when it raises); an empty result is falsy and also gives `None`.
   */
  method ReceiveAndDecompress(replies: seq<seq<byte>>, decompress: seq<byte> -> Option<seq<byte>>)
    returns (data: Option<seq<byte>>)
    ensures FirstShort(replies).None? ==> data.None?
    ensures data.Some? ==> |data.value| > 0
    ensures FirstShort(replies).Some? ==>
      var buffer := Flatten(replies[..FirstShort(replies).value + 1]);
      data == (if decompress(buffer).Some? && |decompress(buffer).value| > 0 then decompress(buffer) else None)
  {
    var buffer := Receive(replies);
    if buffer.None? {
      return None;
    }
    var inflated := decompress(buffer.value);
    if inflated.Some? && |inflated.value| > 0 {
      return inflated;
    }
    return None;
  }

  /** Whether the server's pipe could be opened, and if so the replies its reply gives. */
  datatype ServerPipe = Unavailable | Connected(replies: seq<seq<byte>>)

  /**
   * `send_pipe_request`: open the pipe, send the request, receive and
   * decompress the reply and parse it (`parse` stands for UTF-8 decoding
   * and `json.loads`). Every failure gives `None`.
   */
  method SendPipeRequest(pipe: ServerPipe, decompress: seq<byte> -> Option<seq<byte>>, parse: seq<byte> -> Option<Value>)
    returns (response: Option<Value>)
    ensures pipe.Unavailable? ==> response.None?
    ensures pipe.Connected? && FirstShort(pipe.replies).None? ==> response.None?
    ensures pipe.Connected? && FirstShort(pipe.replies).Some? ==>
      var buffer := Flatten(pipe.replies[..FirstShort(pipe.replies).value + 1]);
      (decompress(buffer).None? || |decompress(buffer).value| == 0 ==> response.None?)
      && (decompress(buffer).Some? && |decompress(buffer).value| > 0 ==> response == parse(decompress(buffer).value))
  {
    if pipe.Unavailable? {
      return None;
    }
    var data := ReceiveAndDecompress(pipe.replies, decompress);
    if data.None? {
      return None;
    }
    response := parse(data.value);
  }

  // ---------------------------------------------------------------------------
  // filter_voices
  // ---------------------------------------------------------------------------

  /**
   * `get_language_name(code).lower()`: the display name `langcodes` gives
   * followed by the code in parentheses, or the code itself when the lookup
   * fails; a code that is not a string comes back unchanged and has no
   * `lower`, so it raises.
   */
  function LanguageName(code: Value, displayName: string -> Option<string>): (r: Py<string>)
    ensures r.Ret? <==> code.Str?
    ensures code.Str? && displayName(code.s).None? ==> r == Ret(Lower(code.s))
    ensures code.Str? && displayName(code.s).Some? ==> r == Ret(Lower(displayName(code.s).value + " (" + code.s + ")"))
  {
    match code
    case Str(c) =>
      (match displayName(c)
       case None => Ret(Lower(c))
       case Some(d) => Ret(Lower(d + " (" + c + ")")))
    case _ => Raise
  }

  /** The lower-cased names of a voice's language codes, in order; the first bad code raises. */
  function LanguageNames(codes: seq<Value>, displayName: string -> Option<string>): (r: Py<seq<string>>)
    ensures r.Ret? <==> forall i :: 0 <= i < |codes| ==> codes[i].Str?
    ensures r.Ret? ==> |r.value| == |codes|
    ensures r.Ret? ==> forall i :: 0 <= i < |codes| ==> Ret(r.value[i]) == LanguageName(codes[i], displayName)
  {
    if |codes| == 0 then Ret([])
    else match (LanguageName(codes[0], displayName), LanguageNames(codes[1..], displayName))
      case (Ret(n), Ret(ns)) => Ret([n] + ns)
      case _ => Raise
  }

  /** Some name contains the search text (both lower-cased). */
  predicate AnyContains(names: seq<string>, search: string)
  {
    exists i :: 0 <= i < |names| && Contains(names[i], Lower(search))
  }

  /** `voice.get("language_codes", [])`, iterated: the codes the filter visits for one voice. */
  function CodeItems(voice: Value): (r: Py<seq<Value>>)
    ensures r.Raise? <==> (!voice.Obj?
      || (Lookup(voice.members, "language_codes").Some? && Iter(Lookup(voice.members, "language_codes").value).Raise?))
    ensures voice.Obj? && Lookup(voice.members, "language_codes").None? ==> r == Ret([])
    ensures voice.Obj? && Lookup(voice.members, "language_codes").Some?
      ==> r == Iter(Lookup(voice.members, "language_codes").value)
  {
    match Get(voice, "language_codes")
    case Raise => Raise
    case Ret(None) => Ret([])
    case Ret(Some(codes)) => Iter(codes)
  }

  /** The code is a string whose lower-cased language name contains the lower-cased search text. */
  predicate NameMatches(code: Value, search: string, displayName: string -> Option<string>)
  {
    code.Str? && Contains(LanguageName(code, displayName).value, Lower(search))
  }

  /**
   * Whether one voice passes the filter: it has a language code whose name
   * contains the search text. A voice that is not a dict, a `language_codes`
   * that cannot be iterated, or a code that is not a string raises.
   */
  function Passes(voice: Value, search: string, displayName: string -> Option<string>): (r: Py<bool>)
    ensures voice.Obj? && Lookup(voice.members, "language_codes").None? ==> r == Ret(false)
    ensures r == Ret(true) ==> voice.Obj? && Lookup(voice.members, "language_codes").Some?
    ensures r.Raise? <==> (CodeItems(voice).Raise?
      || exists i :: 0 <= i < |CodeItems(voice).value| && !CodeItems(voice).value[i].Str?)
    ensures r == Ret(true) <==> (CodeItems(voice).Ret?
      && (forall i :: 0 <= i < |CodeItems(voice).value| ==> CodeItems(voice).value[i].Str?)
      && exists i :: 0 <= i < |CodeItems(voice).value| && NameMatches(CodeItems(voice).value[i], search, displayName))
  {
    match CodeItems(voice)
    case Raise => Raise
    case Ret(items) =>
      match LanguageNames(items, displayName)
      case Raise => Raise
      case Ret(names) =>
        assert forall i :: 0 <= i < |items| ==> names[i] == LanguageName(items[i], displayName).value;
        Ret(AnyContains(names, search))
  }

  /**
   * `filter_voices`: the voices that pass, in their original order. Any
   * voice whose test raises makes the whole filter raise.
   */
  function FilterVoices(voices: seq<Value>, search: string, displayName: string -> Option<string>): (r: Py<seq<Value>>)
    ensures r.Ret? <==> forall i :: 0 <= i < |voices| ==> Passes(voices[i], search, displayName).Ret?
    ensures r.Ret? ==> forall v :: v in r.value ==> v in voices && Passes(v, search, displayName) == Ret(true)
    ensures r.Ret? ==> forall i :: 0 <= i < |voices| && Passes(voices[i], search, displayName) == Ret(true) ==> voices[i] in r.value
    ensures r.Ret? ==> |r.value| <= |voices|
  {
    if |voices| == 0 then Ret([])
    else
      var rest := FilterVoices(voices[1..], search, displayName);
      assert forall i :: 1 <= i < |voices| ==> voices[i] == voices[1..][i - 1];
      Keep(Passes(voices[0], search, displayName), voices[0], rest)
  }

  /** One step of the filter: put `v` in front of the rest when it passes; an exception on either side raises. */
  function Keep(passes: Py<bool>, v: Value, rest: Py<seq<Value>>): (r: Py<seq<Value>>)
    ensures r.Ret? <==> passes.Ret? && rest.Ret?
    ensures r.Ret? ==> r.value == (if passes.value then [v] else []) + rest.value
  {
    match (passes, rest)
    case (Ret(keep), Ret(kept)) => Ret(if keep then [v] + kept else kept)
    case _ => Raise
  }

  /** The results of filtering two lists, one after the other; an exception in either raises. */
  function Concat(x: Py<seq<Value>>, y: Py<seq<Value>>): (r: Py<seq<Value>>)
    ensures r.Ret? <==> x.Ret? && y.Ret?
    ensures r.Ret? ==> r.value == x.value + y.value
  {
    match (x, y)
    case (Ret(a), Ret(b)) => Ret(a + b)
    case _ => Raise
  }

  lemma KeepConcat(passes: Py<bool>, v: Value, x: Py<seq<Value>>, y: Py<seq<Value>>)
    ensures Keep(passes, v, Concat(x, y)) == Concat(Keep(passes, v, x), y)
  {
    if passes.Ret? && x.Ret? && y.Ret? {
      assert (if passes.value then [v] else []) + (x.value + y.value)
          == ((if passes.value then [v] else []) + x.value) + y.value;
    }
  }

  /** Filtering a concatenation filters each part and keeps them in order. */
  lemma {:induction false} FilterAppend(a: seq<Value>, b: seq<Value>, search: string, displayName: string -> Option<string>)
    ensures FilterVoices(a + b, search, displayName) == Concat(FilterVoices(a, search, displayName), FilterVoices(b, search, displayName))
    decreases |a|
  {
    if |a| == 0 {
      assert a + b == b;
      var fb := FilterVoices(b, search, displayName);
      if fb.Ret? {
        assert [] + fb.value == fb.value;
      }
    } else {
      assert (a + b)[0] == a[0];
      assert (a + b)[1..] == a[1..] + b;
      FilterAppend(a[1..], b, search, displayName);
      KeepConcat(Passes(a[0], search, displayName), a[0], FilterVoices(a[1..], search, displayName), FilterVoices(b, search, displayName));
    }
  }

  /** A voice without language codes never passes, whatever the search text, even an empty one. */
  lemma NoCodesNeverPass(voice: Value, search: string, displayName: string -> Option<string>)
    requires voice.Obj?
    requires Lookup(voice.members, "language_codes").None? || Lookup(voice.members, "language_codes") == Some(Arr([]))
    ensures Passes(voice, search, displayName) == Ret(false)
  {
  }

  /** With empty search text, a voice whose codes all have names passes exactly when it has at least one code. */
  lemma EmptySearchPassesAnyCode(voice: Value, displayName: string -> Option<string>, codes: seq<Value>)
    requires voice.Obj? && Lookup(voice.members, "language_codes") == Some(Arr(codes))
    requires forall i :: 0 <= i < |codes| ==> codes[i].Str?
    ensures Passes(voice, "", displayName) == Ret(|codes| > 0)
  {
    var names := LanguageNames(codes, displayName).value;
    if |codes| > 0 {
      ContainsEmpty(names[0]);
      assert Lower("") == "";
      assert Contains(names[0], Lower(""));
    }
  }

  // ---------------------------------------------------------------------------
  // register_selected_voices
  // ---------------------------------------------------------------------------

  /** Python's truth value of a decoded JSON value. */
  predicate Truthy(v: Value)
  {
    match v
    case Null => false
    case Bool(b) => b
    case Int(n) => n != 0
    case Str(s) => |s| > 0
    case Arr(items) => |items| > 0
    case Obj(members) => |members| > 0
  }

  /** `f"{value}"` for the scalar kinds of JSON value; lists and dicts are rendered by `repr`. */
  function Format(v: Value, repr: Value -> string): string
  {
    match v
    case Null => "None"
    case Bool(b) => if b then "True" else "False"
    case Int(n) => Decimal(n)
    case Str(s) => s
    case _ => repr(v)
  }

  /** The combo the client sends: the engine name, `-`, then the voice id. */
  function MakeCombo(engineName: string, voiceId: string): (r: string)
    ensures |r| == |engineName| + 1 + |voiceId|
    ensures r[..|engineName|] == engineName && r[|engineName|] == '-' && r[|engineName| + 1..] == voiceId
  {
    engineName + "-" + voiceId
  }

  /** The server's split undoes the client's join exactly when the engine name has no `-`. */
  lemma ComboRoundTrip(engineName: string, voiceId: string)
    ensures VoiceServer.SplitCombo(Str(MakeCombo(engineName, voiceId))) == Some((engineName, voiceId)) <==> '-' !in engineName
  {
    if '-' !in engineName {
      VoiceServer.SplitAfterPrefix(engineName, voiceId);
    }
  }

  /** A `set_voice` request for one combo. */
  function SetVoiceRequest(combo: string): (r: Value)
    ensures r.Obj? && Keys(r.members) == ["action", "engine_voice_combo"]
    ensures Lookup(r.members, "action") == Some(Str("set_voice"))
    ensures Lookup(r.members, "engine_voice_combo") == Some(Str(combo))
  {
    var members := [("action", Str("set_voice")), ("engine_voice_combo", Str(combo))];
    assert Lookup(members[1..], "engine_voice_combo") == Some(Str(combo));
    Obj(members)
  }

  /**
   * `response and response.get("status") == "success"`: a missing or falsy
   * response is a failure; a truthy response that is not a dict raises.
   */
  function Succeeded(response: Option<Value>): (r: Py<bool>)
    ensures r == Ret(true) <==> response.Some? && response.value.Obj? && Lookup(response.value.members, "status") == Some(Str("success"))
    ensures r.Raise? <==> response.Some? && Truthy(response.value) && !response.value.Obj?
  {
    match response
    case None => Ret(false)
    case Some(v) =>
      if !Truthy(v) then Ret(false)
      else match Get(v, "status")
        case Raise => Raise
        case Ret(status) => Ret(status == Some(Str("success")))
  }

  /**
   * What pressing the register button did: warned that nothing was selected,
   * or sent these requests and saw these outcomes, possibly stopping at an
   * exception.
   */
  datatype Registering = Warned | Sent(requests: seq<Value>, outcomes: seq<bool>, raised: bool)

  /** The voice id a selected item carries: `voice_data["id"]`, formatted. */
  function ItemCombo(engineName: string, item: Value, repr: Value -> string): Py<string>
  {
    match Index(item, "id")
    case Raise => Raise
    case Ret(id) => Ret(MakeCombo(engineName, Format(id, repr)))
  }

  /** `requests[i]` is the `set_voice` request for the `i`-th item, for as many items as were sent. */
  predicate InSelectionOrder(engineName: string, items: seq<Value>, requests: seq<Value>, repr: Value -> string)
  {
    |requests| <= |items|
    && forall i :: 0 <= i < |requests| ==>
      ItemCombo(engineName, items[i], repr).Ret? && requests[i] == SetVoiceRequest(ItemCombo(engineName, items[i], repr).value)
  }

  /** `outcomes[i]` is what the reply to `requests[i]` showed. */
  predicate Answered(requests: seq<Value>, outcomes: seq<bool>, exchange: Value -> Option<Value>)
  {
    |outcomes| <= |requests|
    && forall i :: 0 <= i < |outcomes| ==> Succeeded(exchange(requests[i])) == Ret(outcomes[i])
  }

  lemma InSelectionOrderCons(engineName: string, items: seq<Value>, request: Value, rest: seq<Value>, repr: Value -> string)
    requires |items| > 0 && ItemCombo(engineName, items[0], repr).Ret?
    requires request == SetVoiceRequest(ItemCombo(engineName, items[0], repr).value)
    requires InSelectionOrder(engineName, items[1..], rest, repr)
    ensures InSelectionOrder(engineName, items, [request] + rest, repr)
  {
    var requests := [request] + rest;
    forall i | 0 <= i < |requests|
      ensures ItemCombo(engineName, items[i], repr).Ret? && requests[i] == SetVoiceRequest(ItemCombo(engineName, items[i], repr).value)
    {
      if i > 0 {
        assert items[i] == items[1..][i - 1];
        assert requests[i] == rest[i - 1];
      }
    }
  }

  lemma AnsweredCons(request: Value, ok: bool, requests: seq<Value>, outcomes: seq<bool>, exchange: Value -> Option<Value>)
    requires Succeeded(exchange(request)) == Ret(ok)
    requires Answered(requests, outcomes, exchange)
    ensures Answered([request] + requests, [ok] + outcomes, exchange)
  {
    var rs := [request] + requests;
    var os := [ok] + outcomes;
    forall i | 0 <= i < |os|
      ensures Succeeded(exchange(rs[i])) == Ret(os[i])
    {
      if i > 0 {
        assert rs[i] == requests[i - 1] && os[i] == outcomes[i - 1];
      }
    }
  }

  /** The loop gets past this item: its id formats into a combo and the check of the reply does not raise. */
  predicate Proceeds(engineName: string, item: Value, repr: Value -> string, exchange: Value -> Option<Value>)
  {
    ItemCombo(engineName, item, repr).Ret?
    && Succeeded(exchange(SetVoiceRequest(ItemCombo(engineName, item, repr).value))).Ret?
  }

  /** `Proceeds` as a test on items, for one engine, formatter and pipe. */
  function ProceedsFor(engineName: string, repr: Value -> string, exchange: Value -> Option<Value>): Value -> bool
  {
    item => Proceeds(engineName, item, repr, exchange)
  }

  /**
   * The loop stopped at the first item it could not get past, if any: the
   * outcomes cover exactly the items before it, and at that item a request
   * went out exactly when its combo formatted.
   */
  predicate StoppedAtFirstFailure(engineName: string, items: seq<Value>, repr: Value -> string, exchange: Value -> Option<Value>, r: Registering)
  {
    r.Sent?
    && FirstRejected(items, ProceedsFor(engineName, repr, exchange), |r.outcomes|)
    && |r.requests| <= |r.outcomes| + 1
    && (r.raised <==> |r.outcomes| < |items|)
    && (|r.outcomes| < |items| ==> (|r.requests| == |r.outcomes| <==> ItemCombo(engineName, items[|r.outcomes|], repr).Raise?))
  }

  lemma StoppedAtFirstFailureCons(engineName: string, items: seq<Value>, repr: Value -> string, exchange: Value -> Option<Value>,
                                  request: Value, ok: bool, rest: Registering)
    requires |items| > 0 && Proceeds(engineName, items[0], repr, exchange)
    requires StoppedAtFirstFailure(engineName, items[1..], repr, exchange, rest)
    ensures StoppedAtFirstFailure(engineName, items, repr, exchange, Sent([request] + rest.requests, [ok] + rest.outcomes, rest.raised))
  {
    var n := |rest.outcomes|;
    var test := ProceedsFor(engineName, repr, exchange);
    assert test(items[0]);
    FirstRejectedCons(items, test, n);
    var r := Sent([request] + rest.requests, [ok] + rest.outcomes, rest.raised);
    assert |r.outcomes| == n + 1;
    assert FirstRejected(items, test, |r.outcomes|);
    assert |r.requests| <= |r.outcomes| + 1;
    assert r.raised <==> n + 1 < |items|;
    if n + 1 < |items| {
      assert items[n + 1] == items[1..][n];
      assert |r.requests| == n + 1 <==> |rest.requests| == n;
    }
  }

  /** One request per selected item, in order, each answered by `exchange`; stops at the first exception. */
  function SendSelected(engineName: string, items: seq<Value>, repr: Value -> string, exchange: Value -> Option<Value>): (r: Registering)
    ensures r.Sent?
    ensures InSelectionOrder(engineName, items, r.requests, repr)
    ensures Answered(r.requests, r.outcomes, exchange)
    ensures !r.raised ==> |r.outcomes| == |r.requests| == |items|
    ensures StoppedAtFirstFailure(engineName, items, repr, exchange, r)
  {
    if |items| == 0 then Sent([], [], false)
    else match ItemCombo(engineName, items[0], repr)
      case Raise => Sent([], [], true)
      case Ret(combo) =>
        var request := SetVoiceRequest(combo);
        match Succeeded(exchange(request))
        case Raise =>
          InSelectionOrderCons(engineName, items, request, [], repr);
          Sent([request], [], true)
        case Ret(ok) =>
          var rest := SendSelected(engineName, items[1..], repr, exchange);
          InSelectionOrderCons(engineName, items, request, rest.requests, repr);
          AnsweredCons(request, ok, rest.requests, rest.outcomes, exchange);
          StoppedAtFirstFailureCons(engineName, items, repr, exchange, request, ok, rest);
          Sent([request] + rest.requests, [ok] + rest.outcomes, rest.raised)
  }

  /**
   * `register_selected_voices`: with nothing selected, warn and send
   * nothing; otherwise one `set_voice` request per selected item, in
   * selection order.
   */
  function RegisterSelectedVoices(engineName: string, selected: seq<Value>, repr: Value -> string, exchange: Value -> Option<Value>): (r: Registering)
    ensures r.Warned? <==> |selected| == 0
    ensures r.Sent? ==> InSelectionOrder(engineName, selected, r.requests, repr) && Answered(r.requests, r.outcomes, exchange)
    ensures r.Sent? && !r.raised ==> |r.requests| == |selected|
    ensures r.Sent? ==> StoppedAtFirstFailure(engineName, selected, repr, exchange, r)
    ensures r.Sent? ==> (!r.raised <==> forall k :: 0 <= k < |selected| ==> Proceeds(engineName, selected[k], repr, exchange))
  {
    if |selected| == 0 then Warned
    else
      var r := SendSelected(engineName, selected, repr, exchange);
      FirstRejectedAll(selected, ProceedsFor(engineName, repr, exchange), |r.outcomes|);
      r
  }
}

=== FILE: seqs.dfy ===
/** Generic sequence helpers: concatenation of chunks, bounded prefixes, counting. */
module Seqs {

  /** Concatenation of a sequence of chunks, in order. */
  function Flatten<T>(xss: seq<seq<T>>): seq<T>
  {
    if |xss| == 0 then [] else xss[0] + Flatten(xss[1..])
  }

  lemma {:induction false} FlattenAppend<T>(a: seq<seq<T>>, b: seq<seq<T>>)
    ensures Flatten(a + b) == Flatten(a) + Flatten(b)
  {
    if |a| == 0 {
      assert a + b == b;
    } else {
      assert (a + b)[1..] == a[1..] + b;
      FlattenAppend(a[1..], b);
    }
  }

  lemma FlattenSnoc<T>(a: seq<seq<T>>, x: seq<T>)
    ensures Flatten(a + [x]) == Flatten(a) + x
  {
    FlattenAppend(a, [x]);
    assert Flatten([x]) == x + Flatten([x][1..]);
  }

  /** The first `n` elements of `s`, or all of `s` when it is shorter. */
  function Take<T>(s: seq<T>, n: nat): (r: seq<T>)
    ensures |r| <= n
    ensures r <= s
    ensures |s| <= n ==> r == s
  {
    if |s| <= n then s else s[..n]
  }

  /** Number of occurrences of `x` in `s`. */
  function Count<T(==)>(s: seq<T>, x: T): nat
  {
    if |s| == 0 then 0 else (if s[0] == x then 1 else 0) + Count(s[1..], x)
  }

  lemma {:induction false} CountAppend<T>(a: seq<T>, b: seq<T>, x: T)
    ensures Count(a + b, x) == Count(a, x) + Count(b, x)
  {
    if |a| == 0 {
      assert a + b == b;
    } else {
      assert (a + b)[1..] == a[1..] + b;
      CountAppend(a[1..], b, x);
    }
  }

  lemma {:induction false} CountAbsent<T>(s: seq<T>, x: T)
    requires x !in s
    ensures Count(s, x) == 0
  {
    if |s| > 0 {
      CountAbsent(s[1..], x);
    }
  }

  /** `n` is the index of the first element `ok` rejects, or the length when it accepts them all. */
  predicate FirstRejected<T>(s: seq<T>, ok: T -> bool, n: int)
  {
    0 <= n <= |s|
    && (forall k :: 0 <= k < n ==> ok(s[k]))
    && (n < |s| ==> !ok(s[n]))
  }

  lemma FirstRejectedCons<T>(s: seq<T>, ok: T -> bool, n: int)
    requires |s| > 0 && ok(s[0])
    requires FirstRejected(s[1..], ok, n)
    ensures FirstRejected(s, ok, n + 1)
  {
    forall k | 0 <= k < n + 1
      ensures ok(s[k])
    {
      if k > 0 {
        assert s[k] == s[1..][k - 1];
      }
    }
    if n + 1 < |s| {
      assert s[n + 1] == s[1..][n];
    }
  }

  /** `ok` accepts every element exactly when the first rejected index is the length. */
  lemma FirstRejectedAll<T>(s: seq<T>, ok: T -> bool, n: int)
    requires FirstRejected(s, ok, n)
    ensures n == |s| <==> forall k :: 0 <= k < |s| ==> ok(s[k])
  {
  }
}

=== FILE: text.dfy ===
/**
 * Character-level string operations the modelled code relies on: ASCII case
 * mapping, substring search, separator search and splitting, joining, and the
 * decimal rendering of integers.
 */
module Text {
  import opened Wrappers
  import opened Seqs

  /** ASCII lower-casing of one character; other characters are left alone. */
  function LowerChar(c: char): char
  {
    if 'A' <= c <= 'Z' then (c as int + 32) as char else c
  }

  /** ASCII upper-casing of one character; other characters are left alone. */
  function UpperChar(c: char): char
  {
    if 'a' <= c <= 'z' then (c as int - 32) as char else c
  }

  /** `str.lower()`, restricted to ASCII letters. */
  function Lower(s: string): (r: string)
    ensures |r| == |s|
    ensures forall i :: 0 <= i < |s| ==> r[i] == LowerChar(s[i])
  {
    if |s| == 0 then [] else [LowerChar(s[0])] + Lower(s[1..])
  }

  /** `str.capitalize()`: first character upper case, the rest lower case (ASCII letters only). */
  function Capitalize(s: string): (r: string)
    ensures |r| == |s|
    ensures |s| > 0 ==> r[0] == UpperChar(s[0]) && r[1..] == Lower(s[1..])
  {
    if |s| == 0 then [] else [UpperChar(s[0])] + Lower(s[1..])
  }

  /** `needle` is a prefix of `s`. */
  predicate StartsWith(s: string, needle: string)
  {
    |needle| <= |s| && s[..|needle|] == needle
  }

  /** Python's `needle in hay` on strings, by scanning every start position. */
  predicate Contains(hay: string, needle: string)
    decreases |hay|
  {
    StartsWith(hay, needle) || (|hay| > 0 && Contains(hay[1..], needle))
  }

  /** `needle` occurs in `hay` starting at position `i`. */
  predicate OccursAt(hay: string, needle: string, i: int)
  {
    0 <= i && i + |needle| <= |hay| && hay[i..i + |needle|] == needle
  }

  lemma {:induction false} OccursThenContains(hay: string, needle: string, i: int)
    requires OccursAt(hay, needle, i)
    ensures Contains(hay, needle)
    decreases i
  {
    if i == 0 {
      assert hay[..|needle|] == hay[i..i + |needle|];
    } else {
      assert hay[1..][i - 1..i - 1 + |needle|] == hay[i..i + |needle|];
      OccursThenContains(hay[1..], needle, i - 1);
    }
  }

  /** The scan agrees with the positional definition of a substring. */
  lemma {:induction false} ContainsIffOccurs(hay: string, needle: string)
    ensures Contains(hay, needle) <==> exists i :: OccursAt(hay, needle, i)
    decreases |hay|
  {
    if Contains(hay, needle) {
      if StartsWith(hay, needle) {
        assert OccursAt(hay, needle, 0);
      } else {
        ContainsIffOccurs(hay[1..], needle);
        var j :| OccursAt(hay[1..], needle, j);
        assert hay[j + 1..j + 1 + |needle|] == hay[1..][j..j + |needle|];
        assert OccursAt(hay, needle, j + 1);
      }
    }
    if exists i :: OccursAt(hay, needle, i) {
      var i :| OccursAt(hay, needle, i);
      OccursThenContains(hay, needle, i);
    }
  }

  /** Every string contains the empty string. */
  lemma ContainsEmpty(hay: string)
    ensures Contains(hay, "")
  {
    assert StartsWith(hay, "");
  }

  /** `str.replace(from, to)` for single characters. */
  function Replace(s: string, from: char, to: char): (r: string)
    ensures |r| == |s|
    ensures forall i :: 0 <= i < |s| ==> r[i] == (if s[i] == from then to else s[i])
    ensures from != to ==> from !in r
  {
    if |s| == 0 then [] else [if s[0] == from then to else s[0]] + Replace(s[1..], from, to)
  }

  /** The first position at or after `from` that holds `c` (`find(c, from)`, with `npos` as `None`). */
  function Find(s: string, c: char, from: nat): (r: Option<nat>)
    ensures r.Some? ==> from <= r.value < |s| && s[r.value] == c
    ensures r.Some? ==> forall i :: from <= i < r.value ==> s[i] != c
    ensures r.None? ==> forall i :: from <= i < |s| ==> s[i] != c
    decreases |s| - from
  {
    if from >= |s| then None
    else if s[from] == c then Some(from)
    else Find(s, c, from + 1)
  }

  /** `Find` is determined by where `c` first occurs at or after `from`. */
  lemma FindAt(s: string, c: char, from: nat, pos: nat)
    requires from <= pos < |s| && s[pos] == c
    requires forall i :: from <= i < pos ==> s[i] != c
    ensures Find(s, c, from) == Some(pos)
  {
  }

  lemma FindNone(s: string, c: char, from: nat)
    requires forall i :: from <= i < |s| ==> s[i] != c
    ensures Find(s, c, from) == None
  {
  }

  /**
   * Python's `s.split(sep, 1)` unpacked into two names: the text before the
   * first separator and everything after it. `None` when there is no
   * separator (the unpacking raises).
   */
  function SplitFirst(s: string, sep: char): (r: Option<(string, string)>)
    ensures r.None? <==> sep !in s
    ensures r.Some? ==> sep !in r.value.0 && s == r.value.0 + [sep] + r.value.1
  {
    match Find(s, sep, 0)
    case None =>
      assert forall i :: 0 <= i < |s| ==> s[i] != sep;
      None
    case Some(i) =>
      assert s == s[..i] + [sep] + s[i + 1..];
      Some((s[..i], s[i + 1..]))
  }

  /** The pieces separated by `sep`; the empty list joins to the empty string. */
  function Join(parts: seq<string>, sep: char): string
  {
    if |parts| == 0 then ""
    else if |parts| == 1 then parts[0]
    else parts[0] + [sep] + Join(parts[1..], sep)
  }

  lemma JoinSnoc(parts: seq<string>, last: string, sep: char)
    requires |parts| > 0
    ensures Join(parts + [last], sep) == Join(parts, sep) + [sep] + last
    decreases |parts|
  {
    if |parts| == 1 {
      assert (parts + [last])[1..] == [last];
    } else {
      assert (parts + [last])[1..] == parts[1..] + [last];
      JoinSnoc(parts[1..], last, sep);
    }
  }

  function DigitChar(d: int): char
    requires 0 <= d < 10
  {
    ('0' as int + d) as char
  }

  predicate IsDigit(c: char)
  {
    '0' <= c <= '9'
  }

  /** The decimal digits of a natural number, most significant first, without leading zeros. */
  function NatDigits(n: nat): (r: string)
    ensures |r| > 0
    ensures forall i :: 0 <= i < |r| ==> IsDigit(r[i])
    ensures |r| > 1 ==> r[0] != '0'
    decreases n
  {
    if n < 10 then [DigitChar(n)] else NatDigits(n / 10) + [DigitChar(n % 10)]
  }

  function DigitValue(c: char): nat
    requires IsDigit(c)
  {
    c as int - '0' as int
  }

  /** The number a string of decimal digits denotes. */
  function DigitsValue(s: string): nat
    requires forall i :: 0 <= i < |s| ==> IsDigit(s[i])
  {
    if |s| == 0 then 0 else DigitsValue(s[..|s| - 1]) * 10 + DigitValue(s[|s| - 1])
  }

  /** The usual rendering of an integer: an optional minus sign then its digits. */
  function Decimal(n: int): string
  {
    if n < 0 then "-" + NatDigits(-n) else NatDigits(n)
  }

  /** Reads back what `Decimal` writes. */
  function ReadDecimal(s: string): Option<int>
  {
    if |s| > 0 && s[0] == '-' then
      (if |s| > 1 && forall i :: 1 <= i < |s| ==> IsDigit(s[i]) then Some(0 - DigitsValue(s[1..]) as int) else None)
    else if |s| > 0 && forall i :: 0 <= i < |s| ==> IsDigit(s[i]) then Some(DigitsValue(s))
    else None
  }

  lemma {:induction false} DigitsRoundTrip(n: nat)
    ensures DigitsValue(NatDigits(n)) == n
    decreases n
  {
    if n >= 10 {
      var r := NatDigits(n);
      assert r[..|r| - 1] == NatDigits(n / 10);
      DigitsRoundTrip(n / 10);
    }
  }

  /** Rendering an integer and reading it back gives the integer. */
  lemma DecimalRoundTrip(n: int)
    ensures ReadDecimal(Decimal(n)) == Some(n)
  {
    if n < 0 {
      var d := NatDigits(-n);
      assert ("-" + d)[1..] == d;
      DigitsRoundTrip(-n);
    } else {
      DigitsRoundTrip(n);
    }
  }
}

=== FILE: voice_server.dfy ===
/**
 * The voice server's request handling: the LCID lookup, the split of an
 * `engine-voice` combo, the registry record written for a voice and its
 * removal, the chunked transmission of large replies, and the routing of
 * one request to its handler.
 */
module VoiceServer {
  import opened Wrappers
  import opened Seqs
  import opened Text
  import opened Json
  import opened Python
  import Engine

  /** The largest write `send_large_data` makes. */
  const ChunkSize: nat := 122880

  const UnknownLcid := "Unknown LCID"
  const DefaultLcid := "406"

  // ---------------------------------------------------------------------------
  // convert_to_lcid_format
  // ---------------------------------------------------------------------------

  /** A language code in the LCID map's spelling: every `-` becomes `_`. */
  function LcidFormat(code: string): (r: string)
    ensures |r| == |code| && '-' !in r
  {
    Replace(code, '-', '_')
  }

  /** `i` is the first member of the LCID map whose locale name is `locale`. */
  predicate FirstLocale(members: seq<(string, Value)>, locale: string, i: int)
  {
    0 <= i < |members| && members[i].1 == Str(locale)
    && forall j :: 0 <= j < i ==> members[j].1 != Str(locale)
  }

  function LocaleIndex(members: seq<(string, Value)>, locale: string): (r: Option<nat>)
    ensures r.Some? ==> FirstLocale(members, locale, r.value)
    ensures r.None? ==> forall i :: 0 <= i < |members| ==> members[i].1 != Str(locale)
  {
    if |members| == 0 then None
    else if members[0].1 == Str(locale) then Some(0)
    else match LocaleIndex(members[1..], locale)
      case None => None
      case Some(i) => Some(i + 1)
  }

  lemma FirstLocaleUnique(members: seq<(string, Value)>, locale: string, i: int, j: int)
    requires FirstLocale(members, locale, i) && FirstLocale(members, locale, j)
    ensures i == j
  {
  }

  /**
   * `convert_to_lcid_format`: the key of the first map member, in map order,
   * whose value is the code with `-` replaced by `_`; "Unknown LCID" when
   * there is none. A code that is not a string or a map that is not a dict
   * raises.
   */
  function ConvertToLcidFormat(code: Value, lcidMap: Value): (r: Py<string>)
    ensures r.Raise? <==> !code.Str? || !lcidMap.Obj?
    ensures r.Ret? ==> forall i :: FirstLocale(lcidMap.members, LcidFormat(code.s), i) ==> r.value == lcidMap.members[i].0
    ensures r.Ret? && (forall i :: 0 <= i < |lcidMap.members| ==> lcidMap.members[i].1 != Str(LcidFormat(code.s)))
      ==> r.value == UnknownLcid
  {
    match (code, lcidMap)
    case (Str(c), Obj(members)) =>
      (match LocaleIndex(members, LcidFormat(c))
       case None => Ret(UnknownLcid)
       case Some(i) =>
         forall j | FirstLocale(members, LcidFormat(c), j) ensures j == i {
           FirstLocaleUnique(members, LcidFormat(c), i, j);
         }
         Ret(members[i].0))
    case _ => Raise
  }

  /** The LCID with the `or "406"` default applied to an empty key. */
  function LcidOrDefault(code: Value, lcidMap: Value): (r: Py<string>)
    ensures r.Raise? <==> ConvertToLcidFormat(code, lcidMap).Raise?
    ensures r.Ret? ==> r.value != ""
    ensures ConvertToLcidFormat(code, lcidMap).Ret? && ConvertToLcidFormat(code, lcidMap).value != ""
      ==> r == ConvertToLcidFormat(code, lcidMap)
    ensures ConvertToLcidFormat(code, lcidMap) == Ret("") ==> r == Ret(DefaultLcid)
  {
    match ConvertToLcidFormat(code, lcidMap)
    case Raise => Raise
    case Ret(lcid) => Ret(if lcid == "" then DefaultLcid else lcid)
  }

  /** Writing a code with `-` or with `_` makes no difference to the lookup. */
  lemma LcidIgnoresSeparator(code: string, lcidMap: Value)
    ensures ConvertToLcidFormat(Str(code), lcidMap) == ConvertToLcidFormat(Str(LcidFormat(code)), lcidMap)
  {
    var once := LcidFormat(code);
    assert LcidFormat(once) == once;
  }

  /** The default applies only when the map has an empty key: otherwise the lookup's own answer stands. */
  lemma DefaultNeedsEmptyKey(code: Value, lcidMap: Value)
    requires lcidMap.Obj? && forall i :: 0 <= i < |lcidMap.members| ==> lcidMap.members[i].0 != ""
    ensures LcidOrDefault(code, lcidMap) == ConvertToLcidFormat(code, lcidMap)
  {
    if code.Str? {
      match LocaleIndex(lcidMap.members, LcidFormat(code.s))
      case None =>
      case Some(i) =>
        assert lcidMap.members[i].0 != "";
    }
  }

  // ---------------------------------------------------------------------------
  // The engines and their voices
  // ---------------------------------------------------------------------------

  /** What `get_voices` gave: the voice records, or the message of the exception it raised. */
  datatype VoiceListing = Listed(voices: seq<Value>) | ListingFailed(message: string)

  /**
   * A TTS engine as the server sees it: its voice listing, whether
   * `set_voice(voice_id, locale)` raises, and the audio chunks
   * `synth_to_bytes` yields for a text and voice.
   */
  datatype TtsEngine = TtsEngine(
    listing: VoiceListing,
    setVoiceFails: (string, Value) -> bool,
    synth: (Value, Value) -> seq<seq<byte>>)

  /** Whether a registry key opens, is missing, or refuses to be opened or deleted. */
  datatype KeyState = Present | Absent | Locked

  /**
   * The server's state: the engines by name (in the order `init_engines`
   * added them), the libraries directory, what loading `lcid.json` gave
   * (`None` when it failed) and the state of every registry key.
   */
  datatype Server = Server(
    engines: seq<(string, TtsEngine)>,
    libsDirectory: string,
    lcidFile: Option<Value>,
    registry: string -> KeyState)

  /** `self.engines[name]`, with `None` for the `KeyError`. */
  function EngineOf(engines: seq<(string, TtsEngine)>, name: string): (r: Option<TtsEngine>)
    ensures r.Some? <==> name in Keys(engines)
  {
    if |engines| == 0 then None
    else if engines[0].0 == name then Some(engines[0].1)
    else
      assert Keys(engines) == [engines[0].0] + Keys(engines[1..]);
      EngineOf(engines[1..], name)
  }

  /** `name in self.engines` for a request field: only a string can name an engine. */
  function EngineFor(server: Server, name: Value): (r: Option<TtsEngine>)
    ensures r.Some? ==> name.Str? && name.s in Keys(server.engines)
  {
    if name.Str? then EngineOf(server.engines, name.s) else None
  }

  /** `load_lcid_map`: a map that failed to load is the empty dict. */
  function LcidMap(server: Server): Value
  {
    match server.lcidFile
    case None => Obj([])
    case Some(m) => m
  }

  /** `voice["id"] == voice_id` evaluates without raising and holds. */
  predicate IdIs(voice: Value, id: string)
  {
    Index(voice, "id") == Ret(Str(id))
  }

  /** `voices[k]["id"]` raises, and every voice before it has an id other than `id`. */
  predicate IdRaisesAt(voices: seq<Value>, id: string, k: int)
  {
    0 <= k < |voices| && Index(voices[k], "id").Raise?
    && forall j :: 0 <= j < k ==> Index(voices[j], "id").Ret? && !IdIs(voices[j], id)
  }

  /** Past a first voice with another id, the search raises in the rest exactly when it raises in the whole. */
  lemma IdRaisesAtShift(voices: seq<Value>, id: string)
    requires |voices| > 0 && Index(voices[0], "id").Ret? && !IdIs(voices[0], id)
    ensures (exists k :: IdRaisesAt(voices[1..], id, k)) <==> (exists k :: IdRaisesAt(voices, id, k))
  {
    if k :| IdRaisesAt(voices[1..], id, k) {
      forall j | 0 <= j < k + 1
        ensures Index(voices[j], "id").Ret? && !IdIs(voices[j], id)
      {
        if j > 0 {
          assert voices[j] == voices[1..][j - 1];
        }
      }
      assert IdRaisesAt(voices, id, k + 1);
    }
    if k :| IdRaisesAt(voices, id, k) {
      assert k != 0;
      forall j | 0 <= j < k - 1
        ensures Index(voices[1..][j], "id").Ret? && !IdIs(voices[1..][j], id)
      {
        assert voices[1..][j] == voices[j + 1];
      }
      assert IdRaisesAt(voices[1..], id, k - 1);
    }
  }

  /**
   * `next(voice for voice in voices if voice["id"] == voice_id)`: the index
   * of the first voice with that id, or `None`; a voice before it whose
   * `["id"]` raises makes the search raise.
   */
  function FindVoice(voices: seq<Value>, id: string): (r: Py<Option<nat>>)
    ensures r.Ret? && r.value.Some? ==> r.value.value < |voices| && IdIs(voices[r.value.value], id)
    ensures r.Ret? && r.value.Some? ==> forall j :: 0 <= j < r.value.value ==> Index(voices[j], "id").Ret? && !IdIs(voices[j], id)
    ensures r.Ret? && r.value.None? <==> forall j :: 0 <= j < |voices| ==> Index(voices[j], "id").Ret? && !IdIs(voices[j], id)
    ensures r.Raise? <==> exists k :: IdRaisesAt(voices, id, k)
  {
    if |voices| == 0 then Ret(None)
    else match Index(voices[0], "id")
      case Raise =>
        assert IdRaisesAt(voices, id, 0);
        Raise
      case Ret(v) =>
        if v == Str(id) then Ret(Some(0))
        else
          IdRaisesAtShift(voices, id);
          match FindVoice(voices[1..], id)
          case Raise => Raise
          case Ret(None) => Ret(None)
          case Ret(Some(i)) => Ret(Some(i + 1))
  }

  /** `v[0]`: the first item of a list or the first character of a string; anything else raises. */
  function First(v: Value): (r: Py<Value>)
    ensures v.Arr? && |v.items| > 0 ==> r == Ret(v.items[0])
    ensures v.Str? && |v.s| > 0 ==> r == Ret(Str(v.s[..1]))
    ensures r.Ret? <==> (v.Arr? && |v.items| > 0) || (v.Str? && |v.s| > 0)
  {
    match v
    case Arr(items) => if |items| > 0 then Ret(items[0]) else Raise
    case Str(s) => if |s| > 0 then Ret(Str(s[..1])) else Raise
    case _ => Raise
  }

  /** `voice.get("language_codes", ["en-US"])[0]`. */
  function VoiceLocale(voice: Value): (r: Py<Value>)
    ensures voice.Obj? && Lookup(voice.members, "language_codes").None? ==> r == Ret(Str("en-US"))
    ensures voice.Obj? && Lookup(voice.members, "language_codes").Some? ==> r == First(Lookup(voice.members, "language_codes").value)
  {
    match Get(voice, "language_codes")
    case Raise => Raise
    case Ret(None) => Ret(Str("en-US"))
    case Ret(Some(codes)) => First(codes)
  }

  /** `voice.get("gender", "Neutral").capitalize()` ("Neutral" is already capitalised); a gender that is not a string raises. */
  function VoiceGender(voice: Value): (r: Py<string>)
    ensures voice.Obj? && Lookup(voice.members, "gender").None? ==> r == Ret("Neutral")
    ensures voice.Obj? ==> (r.Ret? <==> Lookup(voice.members, "gender").None? || Lookup(voice.members, "gender").value.Str?)
    ensures voice.Obj? && Lookup(voice.members, "gender").Some? && Lookup(voice.members, "gender").value.Str?
      ==> r == Ret(Capitalize(Lookup(voice.members, "gender").value.s))
  {
    match Get(voice, "gender")
    case Raise => Raise
    case Ret(None) => Ret("Neutral")
    case Ret(Some(Str(g))) => Ret(Capitalize(g))
    case Ret(Some(_)) => Raise
  }

  // ---------------------------------------------------------------------------
  // The engine-voice combo
  // ---------------------------------------------------------------------------

  /**
   * `combo.split("-", 1)` unpacked into an engine name and a voice id: the
   * engine part holds no `-` and the voice part is the rest, verbatim.
   * `None` when the combo is not a string or holds no `-`.
   */
  function SplitCombo(combo: Value): (r: Option<(string, string)>)
    ensures r.None? <==> !combo.Str? || '-' !in combo.s
    ensures r.Some? ==> '-' !in r.value.0 && combo.s == r.value.0 + "-" + r.value.1
  {
    if combo.Str? then SplitFirst(combo.s, '-') else None
  }

  // ---------------------------------------------------------------------------
  // register_voice
  // ---------------------------------------------------------------------------

  /** The values `register_voice` writes under a voice token. */
  datatype VoiceToken = VoiceToken(
    display: string,
    name: string,
    vendor: string,
    language: string,
    gender: string,
    age: string,
    path: string,
    moduleName: string,
    className: string)

  /** The value names written, in the order they are written. */
  const WrittenValueNames: seq<string> := ["", "Name", "Vendor", "Language", "Gender", "Age", "Path", "Module", "Class"]

  /** The token as registry values, in the order `SetValueEx` writes them. */
  function TokenValues(t: VoiceToken): (r: seq<(string, string)>)
    ensures |r| == |WrittenValueNames|
    ensures forall i :: 0 <= i < |r| ==> r[i].0 == WrittenValueNames[i]
  {
    [("", t.display), ("Name", t.name), ("Vendor", t.vendor), ("Language", t.language),
     ("Gender", t.gender), ("Age", t.age), ("Path", t.path), ("Module", t.moduleName),
     ("Class", t.className)]
  }

  /** A registry key and the token written under it. */
  datatype RegistryKey = RegistryKey(path: string, token: VoiceToken)

  /** The 64-bit and then the 32-bit location of the token `PYTTS-<engine>`. */
  function TokenPaths(engineName: string): (r: seq<string>)
    ensures |r| == 2 && r[0] != r[1]
  {
    var token := "PYTTS-" + engineName;
    var native := @"SOFTWARE\Microsoft\Speech\Voices\Tokens\" + token;
    var wow := @"SOFTWARE\WOW6432Node\Microsoft\Speech\Voices\Tokens\" + token;
    assert native[9] != wow[9];
    [native, wow]
  }

  /** The outcome of `register_voice` once the combo is split: the keys written, or `False`. */
  datatype Registration = Registered(keys: seq<RegistryKey>) | Declined

  /** The voice record `register_voice` settles on for `voice_id`, when the engine and the voice exist. */
  function ChosenVoice(server: Server, engineName: string, voiceId: string): Option<Value>
  {
    match EngineOf(server.engines, engineName)
    case None => None
    case Some(engine) =>
      match engine.listing
      case ListingFailed(_) => None
      case Listed(voices) =>
        match FindVoice(voices, voiceId)
        case Ret(Some(i)) => Some(voices[i])
        case _ => None
  }

  /**
   * Everything after the lookup goes through for this voice record: its
   * locale reads, `set_voice` does not raise, its gender reads and the LCID
   * lookup does not raise.
   */
  predicate Registrable(server: Server, engine: TtsEngine, voiceId: string, voice: Value)
  {
    VoiceLocale(voice).Ret? && !engine.setVoiceFails(voiceId, VoiceLocale(voice).value)
    && VoiceGender(voice).Ret? && LcidOrDefault(VoiceLocale(voice).value, LcidMap(server)).Ret?
  }

  /**
   * `register_voice` after the split: look the engine up, find the voice by
   * id, set it on the engine, then write the same token under both registry
   * paths; any failure on the way returns `False`.
   */
  function RegisterFor(server: Server, engineName: string, voiceId: string): (r: Registration)
    ensures EngineOf(server.engines, engineName).None? ==> r == Declined
    ensures EngineOf(server.engines, engineName).Some? && EngineOf(server.engines, engineName).value.listing.ListingFailed?
      ==> r == Declined
    ensures EngineOf(server.engines, engineName).Some? && EngineOf(server.engines, engineName).value.listing.Listed?
      && FindVoice(EngineOf(server.engines, engineName).value.listing.voices, voiceId) == Ret(None)
      ==> r == Declined
    ensures r.Registered? ==> |r.keys| == 2 && r.keys[0].path == TokenPaths(engineName)[0] && r.keys[1].path == TokenPaths(engineName)[1]
    ensures r.Registered? <==> (ChosenVoice(server, engineName, voiceId).Some?
      && Registrable(server, EngineOf(server.engines, engineName).value, voiceId, ChosenVoice(server, engineName, voiceId).value))
    ensures r.Registered? ==>
      var voice := ChosenVoice(server, engineName, voiceId).value;
      IdIs(voice, voiceId) && VoiceLocale(voice).Ret? && VoiceLocale(voice).value.Str?
      && !EngineOf(server.engines, engineName).value.setVoiceFails(voiceId, VoiceLocale(voice).value)
      && r.keys[0].token.display == engineName + " - " + voiceId + " (" + VoiceLocale(voice).value.s + ")"
      && Ret(r.keys[0].token.language) == LcidOrDefault(VoiceLocale(voice).value, LcidMap(server))
      && Ret(r.keys[0].token.gender) == VoiceGender(voice)
    ensures r.Registered? ==> r.keys[0].token == r.keys[1].token
    ensures r.Registered? ==>
      var t := r.keys[0].token;
      t.name == voiceId && t.vendor == engineName && t.age == "Adult" && t.path == server.libsDirectory
      && t.moduleName == "voices" && t.className == engineName + "Voice"
  {
    match EngineOf(server.engines, engineName)
    case None => Declined
    case Some(engine) =>
      match engine.listing
      case ListingFailed(_) => Declined
      case Listed(voices) =>
        match FindVoice(voices, voiceId)
        case Raise => Declined
        case Ret(None) => Declined
        case Ret(Some(i)) => WriteVoice(server, engine, engineName, voiceId, voices[i])
  }

  /**
   * The rest of `register_voice` once the voice record is found: read its
   * locale, set the voice on the engine, read its gender, look up the LCID,
   * and write the same token under both registry paths.
   */
  function WriteVoice(server: Server, engine: TtsEngine, engineName: string, voiceId: string, voice: Value): (r: Registration)
    ensures VoiceLocale(voice).Raise? ==> r == Declined
    ensures VoiceLocale(voice).Ret? && engine.setVoiceFails(voiceId, VoiceLocale(voice).value) ==> r == Declined
    ensures r.Registered? <==> Registrable(server, engine, voiceId, voice)
    ensures r.Registered? ==> |r.keys| == 2 && r.keys[0].path == TokenPaths(engineName)[0] && r.keys[1].path == TokenPaths(engineName)[1]
    ensures r.Registered? ==>
      VoiceLocale(voice).Ret? && VoiceLocale(voice).value.Str? && !engine.setVoiceFails(voiceId, VoiceLocale(voice).value)
      && r.keys[0].token.display == engineName + " - " + voiceId + " (" + VoiceLocale(voice).value.s + ")"
      && Ret(r.keys[0].token.language) == LcidOrDefault(VoiceLocale(voice).value, LcidMap(server))
      && Ret(r.keys[0].token.gender) == VoiceGender(voice)
    ensures r.Registered? ==> r.keys[0].token == r.keys[1].token
    ensures r.Registered? ==>
      var t := r.keys[0].token;
      t.name == voiceId && t.vendor == engineName && t.age == "Adult" && t.path == server.libsDirectory
      && t.moduleName == "voices" && t.className == engineName + "Voice"
  {
    match VoiceLocale(voice)
    case Raise => Declined
    case Ret(locale) =>
      if engine.setVoiceFails(voiceId, locale) then Declined
      else match (VoiceGender(voice), LcidOrDefault(locale, LcidMap(server)))
        case (Ret(gender), Ret(lcid)) =>
          var t := VoiceToken(engineName + " - " + voiceId + " (" + locale.s + ")", voiceId, engineName, lcid,
                              gender, "Adult", server.libsDirectory, "voices", engineName + "Voice");
          var paths := TokenPaths(engineName);
          Registered([RegistryKey(paths[0], t), RegistryKey(paths[1], t)])
        case _ => Declined
  }

  /**
   * `register_voice` as written: when the split fails, the handler's log
   * line reads the unbound `voice_id`, so the call raises instead of
   * returning `False`.
   */
  function RegisterVoiceAsWritten(server: Server, combo: Value): (r: Py<Registration>)
    ensures r.Raise? <==> SplitCombo(combo).None?
  {
    match SplitCombo(combo)
    case None => Raise
    case Some((engineName, voiceId)) => Ret(RegisterFor(server, engineName, voiceId))
  }

  /** `register_voice` with a failed split returning `False` like every other failure. */
  function RegisterVoice(server: Server, combo: Value): (r: Registration)
    ensures SplitCombo(combo).None? ==> r == Declined
    ensures SplitCombo(combo).Some? ==> r == RegisterFor(server, SplitCombo(combo).value.0, SplitCombo(combo).value.1)
  {
    match SplitCombo(combo)
    case None => Declined
    case Some((engineName, voiceId)) => RegisterFor(server, engineName, voiceId)
  }

  /** Where the split succeeds, the corrected handler and the handler as written agree. */
  lemma RegisterVoiceAgrees(server: Server, combo: Value)
    ensures SplitCombo(combo).Some? ==> RegisterVoiceAsWritten(server, combo) == Ret(RegisterVoice(server, combo))
    ensures SplitCombo(combo).None? ==> RegisterVoiceAsWritten(server, combo) == Raise && RegisterVoice(server, combo) == Declined
  {
  }

  /** A combo without `-`, such as a bare engine name, makes the handler as written raise. */
  lemma RegisterWithoutSeparatorRaises(server: Server, combo: string)
    requires combo == "Microsoft"
    ensures RegisterVoiceAsWritten(server, Str(combo)) == Raise
    ensures RegisterVoice(server, Str(combo)) == Declined
  {
    assert '-' !in combo by {
      assert forall i :: 0 <= i < |combo| ==> combo[i] != '-';
    }
  }

  /**
   * The token is named after the engine only: two voices of one engine are
   * written to the same keys, so registering the second replaces the first.
   */
  lemma OneTokenPerEngine(server: Server, engineName: string, v1: string, v2: string)
    ensures RegisterFor(server, engineName, v1).Registered? && RegisterFor(server, engineName, v2).Registered?
      ==> RegisterFor(server, engineName, v1).keys[0].path == RegisterFor(server, engineName, v2).keys[0].path
          && RegisterFor(server, engineName, v1).keys[1].path == RegisterFor(server, engineName, v2).keys[1].path
  {
  }

  /** The registry values of a token, as the engine's token reader sees them. */
  function TokenMap(t: VoiceToken): (m: map<string, string>)
    ensures forall i :: 0 <= i < |WrittenValueNames| ==> WrittenValueNames[i] in m
    ensures forall k :: k in m ==> k in WrittenValueNames
  {
    map["" := t.display, "Name" := t.name, "Vendor" := t.vendor, "Language" := t.language,
        "Gender" := t.gender, "Age" := t.age, "Path" := t.path, "Module" := t.moduleName,
        "Class" := t.className]
  }

  /**
   * The engine's token reader asks for an `Engine` value right after the
   * display name; the record written here has none, so reading a token
   * registered this way stops at `Engine`.
   */
  lemma RegisteredTokenLacksEngine(t: VoiceToken)
    ensures Engine.SetObjectToken(TokenMap(t)) == Engine.MissingValue("Engine")
  {
    var m := TokenMap(t);
    assert "" in m;
    assert "Engine" !in WrittenValueNames;
    assert "Engine" !in m;
  }

  // ---------------------------------------------------------------------------
  // unregister_voice
  // ---------------------------------------------------------------------------

  /** The outcome of `unregister_voice`: the value returned and the keys deleted, in order. */
  datatype Unregistration = Unregistration(ok: bool, deleted: seq<string>)

  /** Key `i` is the first one that cannot be opened or deleted. */
  predicate FirstLockedAt(paths: seq<string>, registry: string -> KeyState, i: int)
  {
    0 <= i < |paths| && registry(paths[i]) == Locked && forall j :: 0 <= j < i ==> registry(paths[j]) != Locked
  }

  /**
   * Delete each key in turn: a missing key is skipped, a key that cannot be
   * opened or deleted ends the loop with `False`.
   */
  function DeleteKeys(paths: seq<string>, registry: string -> KeyState): (r: Unregistration)
    ensures r.ok <==> forall i :: 0 <= i < |paths| ==> registry(paths[i]) != Locked
    ensures forall p :: p in r.deleted ==> p in paths && registry(p) == Present
    ensures r.ok ==> forall i :: 0 <= i < |paths| && registry(paths[i]) == Present ==> paths[i] in r.deleted
    ensures forall i :: FirstLockedAt(paths, registry, i) ==>
      (forall p :: p in r.deleted ==> p in paths[..i])
      && (forall j :: 0 <= j < i && registry(paths[j]) == Present ==> paths[j] in r.deleted)
  {
    if |paths| == 0 then Unregistration(true, [])
    else match registry(paths[0])
      case Locked => Unregistration(false, [])
      case Absent =>
        var rest := DeleteKeys(paths[1..], registry);
        assert forall i :: 1 <= i < |paths| ==> paths[i] == paths[1..][i - 1];
        FirstLockedShift(paths, registry);
        Unregistration(rest.ok, rest.deleted)
      case Present =>
        var rest := DeleteKeys(paths[1..], registry);
        assert forall i :: 1 <= i < |paths| ==> paths[i] == paths[1..][i - 1];
        FirstLockedShift(paths, registry);
        Unregistration(rest.ok, [paths[0]] + rest.deleted)
  }

  /** Past an openable first key, the first locked key is found one place later in the rest. */
  lemma FirstLockedShift(paths: seq<string>, registry: string -> KeyState)
    requires |paths| > 0 && registry(paths[0]) != Locked
    ensures forall i :: FirstLockedAt(paths, registry, i) ==>
      i >= 1 && FirstLockedAt(paths[1..], registry, i - 1) && paths[1..][..i - 1] == paths[1..i]
  {
    forall i | FirstLockedAt(paths, registry, i)
      ensures i >= 1 && FirstLockedAt(paths[1..], registry, i - 1)
    {
      forall j | 0 <= j < i - 1 ensures registry(paths[1..][j]) != Locked {
        assert paths[1..][j] == paths[j + 1];
      }
    }
  }

  /**
   * `unregister_voice` as written: when the split fails, the handler's log
   * line reads the unbound `voice_name`, so the call raises instead of
   * returning `False`.
   */
  function UnregisterVoiceAsWritten(registry: string -> KeyState, combo: Value): (r: Py<Unregistration>)
    ensures r.Raise? <==> SplitCombo(combo).None?
  {
    match SplitCombo(combo)
    case None => Raise
    case Some((engineName, _)) => Ret(DeleteKeys(TokenPaths(engineName), registry))
  }

  /** `unregister_voice` with a failed split returning `False` and deleting nothing. */
  function UnregisterVoice(registry: string -> KeyState, combo: Value): (r: Unregistration)
    ensures SplitCombo(combo).None? ==> r == Unregistration(false, [])
    ensures SplitCombo(combo).Some? ==>
      var paths := TokenPaths(SplitCombo(combo).value.0);
      (r.ok <==> registry(paths[0]) != Locked && registry(paths[1]) != Locked)
      && (forall p :: p in r.deleted ==> p in paths && registry(p) == Present)
      && (paths[0] in r.deleted <==> registry(paths[0]) == Present)
      && (paths[1] in r.deleted <==> registry(paths[0]) != Locked && registry(paths[1]) == Present)
  {
    match SplitCombo(combo)
    case None => Unregistration(false, [])
    case Some((engineName, _)) => DeleteKeys(TokenPaths(engineName), registry)
  }

  lemma UnregisterVoiceAgrees(registry: string -> KeyState, combo: Value)
    ensures SplitCombo(combo).Some? ==> UnregisterVoiceAsWritten(registry, combo) == Ret(UnregisterVoice(registry, combo))
    ensures SplitCombo(combo).None? ==> UnregisterVoiceAsWritten(registry, combo) == Raise && !UnregisterVoice(registry, combo).ok
  {
  }

  /** A combo without `-` makes the handler as written raise. */
  lemma UnregisterWithoutSeparatorRaises(registry: string -> KeyState, combo: string)
    requires combo == "Microsoft"
    ensures UnregisterVoiceAsWritten(registry, Str(combo)).Raise?
    ensures UnregisterVoice(registry, Str(combo)) == Unregistration(false, [])
  {
    assert '-' !in combo by {
      assert forall i :: 0 <= i < |combo| ==> combo[i] != '-';
    }
  }

  /** Only the engine part of the combo matters: unregistering any voice of an engine removes the engine's token. */
  lemma UnregisterIgnoresVoice(registry: string -> KeyState, engineName: string, v1: string, v2: string)
    requires '-' !in engineName
    ensures UnregisterVoice(registry, Str(engineName + "-" + v1)) == UnregisterVoice(registry, Str(engineName + "-" + v2))
  {
    var c1 := engineName + "-" + v1;
    var c2 := engineName + "-" + v2;
    SplitAfterPrefix(engineName, v1);
    SplitAfterPrefix(engineName, v2);
  }

  /** The first `-` of `e + "-" + v` is the one after `e` when `e` has none. */
  lemma SplitAfterPrefix(e: string, v: string)
    requires '-' !in e
    ensures SplitCombo(Str(e + "-" + v)) == Some((e, v))
  {
    var s := e + "-" + v;
    FindAt(s, '-', 0, |e|);
    assert s[..|e|] == e;
    assert s[|e| + 1..] == v;
  }

  // ---------------------------------------------------------------------------
  // send_large_data
  // ---------------------------------------------------------------------------

  /**
   * `send_large_data`: the compressed payload (`None` when serialising or
   * compressing raised) goes out in writes of at most `ChunkSize` bytes,
   * every one full but the last, followed by one empty write that marks the
   * end; nothing is written when there is no payload.
   */
  method SendLargeData(payload: Option<seq<byte>>) returns (writes: seq<seq<byte>>)
    ensures payload.None? ==> writes == []
    ensures payload.Some? ==> |writes| == (|payload.value| + ChunkSize - 1) / ChunkSize + 1
    ensures payload.Some? ==> writes[|writes| - 1] == [] && Flatten(writes) == payload.value
    ensures payload.Some? ==> forall i :: 0 <= i < |writes| - 1 ==> 0 < |writes[i]| <= ChunkSize
    ensures payload.Some? ==> forall i :: 0 <= i < |writes| - 2 ==> |writes[i]| == ChunkSize
  {
    if payload.None? {
      return [];
    }
    var data := payload.value;
    var chunks: seq<seq<byte>> := [];
    var i := 0;
    while i < |data|
      invariant 0 <= i <= |data|
      invariant Flatten(chunks) == data[..i]
      invariant forall k :: 0 <= k < |chunks| ==> 0 < |chunks[k]| <= ChunkSize
      invariant forall k :: 0 <= k < |chunks| - 1 ==> |chunks[k]| == ChunkSize
      invariant i < |data| ==> forall k :: 0 <= k < |chunks| ==> |chunks[k]| == ChunkSize
      invariant i < |data| ==> i == |chunks| * ChunkSize
      invariant (|chunks| == 0 <==> i == 0)
      invariant |chunks| > 0 ==> (|chunks| - 1) * ChunkSize < i <= |chunks| * ChunkSize
      decreases |data| - i
    {
      var end := if i + ChunkSize <= |data| then i + ChunkSize else |data|;
      var chunk := data[i..end];
      FlattenSnoc(chunks, chunk);
      assert data[..end] == data[..i] + chunk;
      chunks := chunks + [chunk];
      i := end;
    }
    assert data[..i] == data;
    FlattenSnoc(chunks, []);
    CeilingOfChunks(|data|, |chunks|);
    writes := chunks + [[]];
  }

  lemma CeilingOfChunks(size: nat, n: nat)
    requires n == 0 <==> size == 0
    requires n > 0 ==> (n - 1) * ChunkSize < size <= n * ChunkSize
    ensures n == (size + ChunkSize - 1) / ChunkSize
  {
  }

  // ---------------------------------------------------------------------------
  // run
  // ---------------------------------------------------------------------------

  /** What one `ReadFile` gave: its result code and the bytes read. */
  datatype Incoming = Incoming(result: int, data: seq<byte>)

  /**
   * What the server writes back for one request: nothing, one compressed
   * JSON message, a JSON response sent through `send_large_data`, or the raw
   * audio chunks of `speak`.
   */
  datatype Reply = NoReply | Message(response: Value) | Large(response: Value) | Audio(chunks: seq<seq<byte>>)

  /** The request a connection carries: a zero read result, then decompression, decoding and parsing. */
  function Request(incoming: Incoming, decode: seq<byte> -> Option<Value>): Option<Value>
  {
    if incoming.result == 0 then decode(incoming.data) else None
  }

  /** `request.get(key)`, with a missing key read as `None`. */
  function Field(request: Value, key: string): Value
    requires request.Obj?
  {
    match Lookup(request.members, key)
    case None => Null
    case Some(v) => v
  }

  /** The `status` member of a response. */
  function Status(response: Value): Option<Value>
  {
    if response.Obj? then Lookup(response.members, "status") else None
  }

  function StatusResponse(ok: bool): (r: Value)
    ensures Status(r) == Some(Str("success")) <==> ok
    ensures !ok ==> Status(r) == Some(Str("failure"))
    ensures r.Obj? && Keys(r.members) == ["status"]
  {
    Obj([("status", Str(if ok then "success" else "failure"))])
  }

  /** `fetch_voices`: the voices on success, an error with the exception's message, or "No voices found". */
  function VoicesResponse(listing: VoiceListing): (r: Value)
    ensures Status(r) == Some(Str("success")) <==> listing.Listed? && |listing.voices| > 0
    ensures Status(r).Some?
    ensures r.Obj?
    ensures listing.Listed? && |listing.voices| > 0 ==> Lookup(r.members, "voices") == Some(Arr(listing.voices))
    ensures listing.Listed? && |listing.voices| == 0 ==> Lookup(r.members, "message") == Some(Str("No voices found"))
    ensures listing.ListingFailed? ==> Lookup(r.members, "message") == Some(Str(listing.message))
  {
    match listing
    case ListingFailed(message) => Obj([("status", Str("error")), ("message", Str(message))])
    case Listed(voices) =>
      if |voices| == 0 then Obj([("status", Str("error")), ("message", Str("No voices found"))])
      else Obj([("status", Str("success")), ("voices", Arr(voices))])
  }

  const Actions: set<Value> := {Str("list_engines"), Str("list_voices"), Str("set_voice"), Str("unregister_voice"), Str("speak")}

  /**
   * One pass of the `run` loop once the request is parsed: dispatch on
   * `action`. Anything that raises ends the pass without a reply.
   */
  function Route(server: Server, request: Value): (r: Reply)
    ensures !request.Obj? ==> r == NoReply
    ensures request.Obj? && Field(request, "action") !in Actions ==> r == NoReply
    ensures request.Obj? && Field(request, "action") == Str("list_engines")
      ==> r == Message(Obj([("engines", Arr(KeyValues(Keys(server.engines))))]))
    ensures request.Obj? && Field(request, "action") == Str("set_voice")
      ==> r == Message(StatusResponse(RegisterVoice(server, Field(request, "engine_voice_combo")).Registered?))
          && (Status(r.response) == Some(Str("success")) <==> RegisterVoice(server, Field(request, "engine_voice_combo")).Registered?)
    ensures request.Obj? && Field(request, "action") == Str("unregister_voice")
      ==> r == Message(StatusResponse(UnregisterVoice(server.registry, Field(request, "voice_iso_code")).ok))
          && (Status(r.response) == Some(Str("success")) <==> UnregisterVoice(server.registry, Field(request, "voice_iso_code")).ok)
    ensures (request.Obj? && (Field(request, "action") == Str("list_voices") || Field(request, "action") == Str("speak"))
             && EngineFor(server, Field(request, "engine")).None?) ==> r == NoReply
    ensures request.Obj? && Field(request, "action") == Str("list_voices") && EngineFor(server, Field(request, "engine")).Some?
      ==> r.Large? && (Status(r.response) == Some(Str("success"))
                       <==> EngineFor(server, Field(request, "engine")).value.listing.Listed?
                            && |EngineFor(server, Field(request, "engine")).value.listing.voices| > 0)
          && r.response == VoicesResponse(EngineFor(server, Field(request, "engine")).value.listing)
    ensures request.Obj? && Field(request, "action") == Str("speak") && EngineFor(server, Field(request, "engine")).Some?
      ==> (r.Audio? <==> Field(request, "text").Str? || Field(request, "text").Arr?)
    ensures r.Audio? ==>
      (request.Obj? && Field(request, "action") == Str("speak") && EngineFor(server, Field(request, "engine")).Some?
       && r.chunks == EngineFor(server, Field(request, "engine")).value.synth(Field(request, "text"), Field(request, "voice")))
  {
    if !request.Obj? then NoReply
    else
      var action := Field(request, "action");
      if action == Str("list_engines") then
        Message(Obj([("engines", Arr(KeyValues(Keys(server.engines))))]))
      else if action == Str("list_voices") then
        match EngineFor(server, Field(request, "engine"))
        case None => NoReply
        case Some(engine) => Large(VoicesResponse(engine.listing))
      else if action == Str("set_voice") then
        Message(StatusResponse(RegisterVoice(server, Field(request, "engine_voice_combo")).Registered?))
      else if action == Str("unregister_voice") then
        Message(StatusResponse(UnregisterVoice(server.registry, Field(request, "voice_iso_code")).ok))
      else if action == Str("speak") then
        match EngineFor(server, Field(request, "engine"))
        case None => NoReply
        case Some(engine) =>
          var text := Field(request, "text");
          if text.Str? || text.Arr? then Audio(engine.synth(text, Field(request, "voice"))) else NoReply
      else NoReply
  }

  /** One connection: a failed read, an undecodable request or a request that is not a dict gets no reply. */
  function Serve(server: Server, incoming: Incoming, decode: seq<byte> -> Option<Value>): (r: Reply)
    ensures incoming.result != 0 ==> r == NoReply
    ensures decode(incoming.data).None? ==> r == NoReply
    ensures r != NoReply ==> Request(incoming, decode).Some? && Request(incoming, decode).value.Obj?
    ensures Request(incoming, decode).Some? ==> r == Route(server, Request(incoming, decode).value)
  {
    match Request(incoming, decode)
    case None => NoReply
    case Some(request) => Route(server, request)
  }
}

=== FILE: wrappers.dfy ===
/** Failure-compatible optional value shared by every module of the model. */
module Wrappers {

  /** `None` stands for "no value", or for a failure whose detail the model does not keep. */
  datatype Option<+T> = None | Some(value: T)
}
